=== FILE: README.md ===
# VLC on-screen widgets and AudioQueue output, in Dafny

This project models two small parts of VLC for iOS.

**The on-screen display widgets** (`vlc/src/video_output/video_widgets.c`)
are the sliders and icons VLC overlays on the video. An example is the volume
bar or the pause sign.
- A request names a kind of widget and a position. `OSDWidget` clamps the position and turns the request into a subpicture with a fixed lifetime.
- The subpicture engine asks `OSDWidgetValidate` whether the current region can be kept.
- Otherwise it calls `OSDWidgetUpdate`, which builds the region from the source video format. `OSDSlider` or `OSDIcon` size and place a white, transparent YUVA region (`OSDRegion`). They then draw the widget into its alpha plane with `DrawRect`, `DrawTriangle` and the inverted diagonal of the mute icon.

**The AudioQueue audio output** (`vlc/modules/audio_output/audioqueue.c`)
feeds the host audio queue.
- `AudioQueueCallback` runs for each queue buffer that has finished playing. It pops the next buffer from the output FIFO and copies it into the queue buffer. If nothing comes out, it fills the queue buffer with silence. Either way it enqueues the queue buffer again.
- `Open` fixes the device and output formats. It primes the queue by running the callback with no user data on three new buffers.

## Layout

| file | module | contents |
|---|---|---|
| `plane.dfy` | `Options`, `Plane` | `Option`; byte planes (`seq<seq<bv8>>`, rows of `pitch` bytes), clipped writes, flat offsets |
| `draw.dfy` | `Draw` | `DrawRect`, `DrawTriangle`, the mute stroke: reference definitions, loop methods proved equal to them, and the flat-buffer versions as written |
| `geometry.dfy` | `Geometry` | slider and icon placement; `OSDSlider`'s geometry with unsigned 32-bit wrap-around |
| `osd.dfy` | `Osd` | `OSDRegion`, `OSDSlider`, `OSDIcon` |
| `widget.dfy` | `Widget` | `OSDWidget`, `vout_OSDSlider`, `vout_OSDIcon`, `OSDWidgetValidate`, `OSDWidgetUpdate` |
| `audioqueue.dfy` | `AudioQueue` | `AudioQueueCallback`, repeated callbacks, `Open` |

### Modelling choices

- **Planes.** A plane is `height` rows of `pitch` bytes. Pixel (x, y) is the C byte `x + pitch * y` of the flat buffer `Plane.Flatten`. Every write goes through `Plane.Put`, which drops a pixel outside the plane. For a pixel inside the plane, `Plane.PutIsFlatWrite` proves that `Put` is exactly the C byte write. The C code has no bounds check, so clipping is a choice of the model. It matters only where a C write leaves its row or the buffer. The reported cases (a cursor or tick at column -1, and the mute loop) are under Findings, with the flat-buffer behaviour modelled as written. `Draw.FlatFilledRectInsideRows` proves that the unchecked filled rectangle and the clipped one agree whenever the box lies within the row. The writes one column past a region's right edge, by 1-pixel-wide sliders and by 1- and 2-pixel speaker and mute icons, are listed under Left out.
- **Drawings.** Each drawing has a reference definition (`Draw.Rect`, `Draw.Triangle`, `Draw.MuteStroke`) that says which pixels it covers. A method follows the C loops write by write and is proved equal to that definition.
- **Integer division.** C's `/` on `int` truncates toward zero; it is written `Draw.TDiv`. The `>> 1` on the non-negative icon sizes is Dafny's `/ 2`.
- **Floating-point ratios.** These are taken as the exact decimal fractions.
  - `size * 0.10` is `size / 10` and `visible_height * 0.05` is `visible_height / 20`.
  - `visible_width * 0.025` is `visible_width / 40` and `size * 0.05` is `size / 20`.
  - The icon's `y_offset + 0.07 * size` is `y_offset + floor(7 * size / 100)`.
  - The icon's `x_offset + visible_width - 0.07 * size - width` truncates to `... - ceil(7 * size / 100)`. This holds whenever the result is non-negative, and a negative x is clamped to 0 by the caller anyway.
- **Allocations, settings and the clock** are parameters:
  - `pitch: Option<nat>` is the outcome of `subpicture_region_New`.
  - `created: bool` is the outcome of `malloc` plus `subpicture_New`.
  - `osdEnabled` is the "osd" setting and `now` is `mdate()`.
  - The buffers `AudioQueueAllocateBuffer` returns are the parameter `buffers`.
- **Audio state.** The audio FIFO is a sequence of payloads, and the device queue is the sequence of every buffer enqueued so far.

## Model

| member | source | states |
|---|---|---|
| Draw.DrawRect | vlc/src/video_output/video_widgets.c:46-67 | Filled style sets exactly the pixels of the inclusive box [x1..x2]x[y1..y2] to 0xff. Outline style sets exactly columns x1, x2 over rows y1..y2 and rows y1, y2 over columns x1..x2. Every other pixel is unchanged. |
| Draw.InvertedFilledRectDrawsNothing | vlc/src/video_output/video_widgets.c:52-56 | A filled rectangle with x1 > x2 or y1 > y2 leaves the plane unchanged |
| Draw.OutlineIsBorderOfBox | vlc/src/video_output/video_widgets.c:57-66 | With ordered corners, the outline covers exactly the pixels of the filled box that lie on row y1 or y2 or on column x1 or x2 |
| Draw.RectIdempotentAndBinary | vlc/src/video_output/video_widgets.c:46-67 | Drawing a rectangle twice equals drawing it once; a plane holding only 0x00/0xff still does afterwards |
| Draw.DrawTriangle | vlc/src/video_output/video_widgets.c:73-118 | Sets exactly the triangle's pixels: for h = 0..(y2-y1)/2, rows y1+h and y2-h get the span of half-width h from x1 towards x2. Filled spans stop at x2; outline spans set only their end points. Every other pixel is unchanged. |
| Draw.TriangleCoversSymmetric | vlc/src/video_output/video_widgets.c:83-97 | A pixel is covered on row y exactly when it is covered on the mirrored row y1 + y2 - y |
| Draw.TriangleOnBlankIsSymmetric | vlc/src/video_output/video_widgets.c:83-89 | Drawn on a transparent plane, the triangle is mirror-symmetric about its middle row |
| Draw.FilledTriangleWithinCorners | vlc/src/video_output/video_widgets.c:81-107 | A filled triangle covers only columns between x1 and x2, on the side the x2 >= x1 test chooses, and rows between y1 and y2 |
| Draw.InvertMuteStroke | vlc/src/video_output/video_widgets.c:229-236 | Inverts (0xff - a) exactly the in-plane pixels (i, height-1-i) with i >= 1 and leaves every other pixel unchanged |
| Draw.MuteStrokeInvolution | vlc/src/video_output/video_widgets.c:232-235 | Inverting the diagonal twice restores the plane; inversion keeps a 0x00/0xff plane so |
| Osd.NewRegion | vlc/src/video_output/video_widgets.c:123-148 | Absent exactly when the allocation fails. Otherwise the region is at (x, y) with the given size. Its planes are all 0xff (Y), 0x80 (U, V) and 0x00 (alpha). |
| Geometry.SliderBox | vlc/src/video_output/video_widgets.c:157-172 | Slider width and height are at least 1. A horizontal slider's x is at most visible_width - width. A vertical slider's y is at most visible_height - height. |
| Geometry.SliderMarginsSymmetric | vlc/src/video_output/video_widgets.c:157-171 | In a frame more than two margins across, a slider leaves exactly one margin (a tenth of the larger side) free at each end |
| Geometry.IconBox | vlc/src/video_output/video_widgets.c:199-210 | Icons are square; icon x is at least 0 and icon y is at most visible_height - height |
| Geometry.IconKeepsMargins | vlc/src/video_output/video_widgets.c:199-206 | When the frame leaves room, the icon sits 7% of the larger side from the right edge (rounded up) and from the top (rounded down) |
| Osd.Slider | vlc/src/video_output/video_widgets.c:154-191 | Absent exactly when the allocation fails. Otherwise the region has the slider geometry, keeps Y/U/V white, holds only 0x00/0xff alpha, and has its whole outline opaque. |
| Osd.CursorColumnInRange | vlc/src/video_output/video_widgets.c:179 | For position in [0, 100] and width >= 2, pos_x lies in [0, width - 2], with 0 at position 0 and width - 2 at position 100 |
| Osd.FillTopInRange | vlc/src/video_output/video_widgets.c:184 | For position in [0, 100] and height >= 2, pos_y lies in [2, height], with height at position 0 and 2 at position 100 |
| Osd.VerticalSliderAtZeroIsEmpty | vlc/src/video_output/video_widgets.c:183-188 | At position 0 a vertical slider draws no fill bar: inside the outline only the two mid-height ticks are opaque |
| Osd.SliderShowsPosition | vlc/src/video_output/video_widgets.c:178-189 | Inside the outline, a pixel is opaque exactly where the slider draws, and transparent elsewhere. For a horizontal slider that is columns pos_x - 1 to pos_x + 1 on rows 2 to height - 3. For a vertical slider it is the fill bar (columns 2 to width - 3, rows pos_y to height - 3) plus the ticks (1, height/2) and (width - 2, height/2). |
| Osd.Icon | vlc/src/video_output/video_widgets.c:197-239 | Absent exactly when the allocation fails. Otherwise the region is square with the icon geometry, keeps Y/U/V white, and holds only 0x00/0xff alpha. |
| Osd.SpeakerIconIsBoxAndCone | vlc/src/video_output/video_widgets.c:223-228 | A speaker-icon pixel is opaque exactly when the centred box or the filled cone (the triangle from the box's right edge back to its left over the full height) covers it, and transparent otherwise |
| Osd.IconShowsKind | vlc/src/video_output/video_widgets.c:212-236 | Every icon pixel is opaque exactly when its kind's shape covers it: the two bars, the play triangle, the speaker's box and cone, or the speaker with its diagonal inverted for mute; every other pixel is transparent |
| Osd.PauseIconIsTwoBars | vlc/src/video_output/video_widgets.c:214-217 | A pause-icon pixel is opaque exactly when it lies in the left or the right width/3 columns |
| Osd.PlayIconIsTriangle | vlc/src/video_output/video_widgets.c:218-222 | The play icon's alpha plane is exactly the filled triangle from (delta, 0) towards width - delta, with y2 = ((height - 1) / 2) * 2, drawn on a transparent plane |
| Osd.PlayIconIsSymmetric | vlc/src/video_output/video_widgets.c:218-222 | The play icon is mirror-symmetric about row ((height-1)/2*2)/2 |
| Osd.MuteIsStruckSpeaker | vlc/src/video_output/video_widgets.c:223-236 | The mute icon is the speaker icon with its diagonal inverted, and inverting it again gives the speaker back |
| Widget.ClampPosition | vlc/src/video_output/video_widgets.c:284-285 | A slider position is clamped into [0, 100] and kept when already inside; an icon's position is kept as given |
| Widget.OSDWidget | vlc/src/video_output/video_widgets.c:280-313 | A subpicture exists exactly when the "osd" setting is on and both allocations succeed. It then has the requested channel, start = now and stop = start + 1200000, is ephemeral, absolute and fading, and has no region yet. It records the kind and the position: a slider's is kept inside [0, 100], becomes 0 below and 100 above; an icon's is kept. |
| Widget.ShowSlider | vlc/src/video_output/video_widgets.c:315-318 | A subpicture exists exactly when the "osd" setting is on and both allocations succeed. It records the slider kind and a position in [0, 100]: the given one when inside, 0 below the range, 100 above it. |
| Widget.ShowIcon | vlc/src/video_output/video_widgets.c:320-323 | An icon request always records position 0 |
| Widget.Validate | vlc/src/video_output/video_widgets.c:246-257 | Returns VLC_SUCCESS exactly when neither format changed, and VLC_EGENERIC otherwise |
| Widget.Update | vlc/src/video_output/video_widgets.c:259-273 | Records the source's i_width/i_height as the original picture size and changes nothing else but the region. The region has the kind's slider or icon geometry and is absent exactly when the allocation fails; its drawing is stated end to end by `Widget.WidgetShowsClampedPosition` and `Widget.WidgetShowsIcon`. |
| Widget.WidgetShowsClampedPosition | vlc/src/video_output/video_widgets.c:280-318 | A slider request built by OSDWidgetUpdate shows the position it asked for, clamped into [0, 100]: inside the outline, a pixel is opaque exactly where the cursor, or the fill bar and ticks, for that position lie |
| Widget.WidgetShowsIcon | vlc/src/video_output/video_widgets.c:259-273 | An icon request built by OSDWidgetUpdate shows its own kind's drawing: every icon pixel is opaque exactly when that kind's shape covers it |
| Widget.Refresh | vlc/src/video_output/video_widgets.c:246-273 | The engine keeps the subpicture when no format changed and rebuilds it otherwise |
| Widget.KeepMatchesRebuild | vlc/src/video_output/video_widgets.c:254-272 | Keeping a region built from a format gives the same subpicture as rebuilding it from that format |
| Widget.RebuildIgnoresOldRegion | vlc/src/video_output/video_widgets.c:267-272 | A rebuild does not depend on the region it replaces |
| AudioQueue.FifoPop | vlc/modules/audio_output/audioqueue.c:163 | Removes exactly the head of a non-empty FIFO and keeps the rest in order; an empty FIFO gives nothing |
| AudioQueue.Callback | vlc/modules/audio_output/audioqueue.c:155-182 | Enqueues exactly one buffer of the same capacity. If a payload was popped, the buffer plays exactly that payload, its byte size is the payload length, and the bytes after it are untouched. Otherwise every byte up to capacity is 0 and the byte size is the capacity. Only the head of the FIFO is removed. |
| AudioQueue.PrimingIgnoresFifo | vlc/modules/audio_output/audioqueue.c:113 | With no user data the FIFO is untouched and the enqueued buffer is full-size silence |
| AudioQueue.Pump | vlc/modules/audio_output/audioqueue.c:155-182 | Over n callbacks, the k-th enqueued buffer has the k-th target's capacity and plays the k-th FIFO payload, or silence filling that whole capacity once the FIFO is empty. Exactly the first n payloads are removed, and earlier enqueued buffers are kept. |
| AudioQueue.PumpDrainsInOrder | vlc/modules/audio_output/audioqueue.c:161-179 | As many callbacks as the FIFO holds play its payloads in order and leave it empty |
| AudioQueue.Open | vlc/modules/audio_output/audioqueue.c:77-130 | Primes exactly 3 buffers of FRAME_SIZE * 4 = 8192 bytes, each full-size silence, and leaves the FIFO alone. The output is S16L (signed 16-bit little-endian), 2 channels, 44100 Hz, FRAME_SIZE samples per block. The device format is linear PCM, signed and not big-endian, at the same rate, channels and bits, with 1 frame per packet and channels * bits / 8 = 4 bytes per frame and per packet. FRAME_SIZE samples fill one buffer exactly. |
| Geometry.SliderBoxAsWritten | vlc/src/video_output/video_widgets.c:157-172 | OSDSlider's geometry in the C's unsigned arithmetic. The horizontal width (vertical height) is side - 2 * margin as an int, negative whenever the margin exceeds half the side; only a difference of exactly 0 becomes 1. The other dimension is the scaled one, at least 1. |
| Draw.FlatFilledRect | vlc/src/video_output/video_widgets.c:52-56 | DrawRect's filled loops on the flat buffer as written: byte k becomes 0xff exactly when some pixel of the box has offset k, whether or not its x lies inside a row; the buffer keeps its length |
| Draw.FlatFilledRectInsideRows | vlc/src/video_output/video_widgets.c:52-56 | When the box's columns lie in [0, pitch), the unchecked flat writes give exactly the flattened clipped rectangle `Draw.Rect` |
| Plane.PutIsFlatWrite | vlc/src/video_output/video_widgets.c:55 | A clipped write at a pixel inside the plane equals the C store `a[x + pitch * y]` on the flat buffer, which lies in the buffer |
| Draw.MuteStrokeOffsetOnDiagonal | vlc/src/video_output/video_widgets.c:232-234 | `Draw.MuteStrokeOffset` is the C offset i + (height - i - 1) * pitch. For i < height it is the in-buffer byte of diagonal pixel (i, height - 1 - i); from i = height on it is negative. |
| Geometry.TallFrameWrapsSliderWidth | vlc/src/video_output/video_widgets.c:163-165 | As written, a 10x100 frame gives a horizontal slider of width -10; the intended width is 1 |
| Geometry.WideFrameWrapsSliderHeight | vlc/src/video_output/video_widgets.c:169-171 | As written, a 100x10 frame gives a vertical slider of height -10; the intended height is 1 |
| Geometry.SliderAsWrittenAgrees | vlc/src/video_output/video_widgets.c:157-172 | For aspect ratios between 1:5 and 5:1 nothing wraps and the geometry as written equals the intended one |
| Osd.CursorAtZeroWritesRowAbove | vlc/src/video_output/video_widgets.c:179-180 | At position 0 the cursor starts at x = -1. The unchecked write to (-1, 2) lands on byte pitch*2 - 1, which is pixel (pitch - 1, 1) of the row above, and that pixel turns opaque. |
| Osd.CursorAtLeftEdge | vlc/src/video_output/video_widgets.c:179 | For width >= 2 and position in [0, 100], the cursor starts at column 0, so its left column is -1, exactly when (width - 2) * position < 100 |
| Osd.NarrowSliderWritesRowAbove | vlc/src/video_output/video_widgets.c:168-187 | A 60x40 frame gives a 1 x 28 vertical slider. Its right tick at column width - 2 = -1, row 14, is written at byte 14*pitch - 1, which is pixel (pitch - 1, 13) of the row above, and that byte turns opaque. A 1-pixel-wide horizontal slider at position 100 has pos_x = -1 likewise. |
| Osd.MuteStrokeLeavesPlane | vlc/src/video_output/video_widgets.c:232-234 | When pitch > height, step i = height of the mute loop writes at offset height - pitch < 0, before the alpha plane |

## Left out

- Floating-point rounding: the ratios are the exact decimal fractions, not their binary `float`/`double` approximations. For some sizes the C product can round across an integer, for example when 0.07f * size is a hair below an integer.
- `vout_PutSubpicture` (handing the subpicture to the video output, and the channel replacing earlier widgets) is not part of this model, and neither is the subpicture engine that calls validate and update. `Widget.Refresh` only composes the two callbacks as the engine's contract describes.
- `OSDWidgetDestroy` (a `free`), `aout_BufferFree`, and `free(sys)` on the failure path: memory release has no counterpart in a value model.
- `mdate()`, `var_InheritBool`, `malloc`, `subpicture_New`, `subpicture_region_New`, `AudioQueueAllocateBuffer`: these are parameters (see Modelling choices).
- `video_format_Init`, `VLC_CODEC_YUVA` and the sample aspect ratio of the region's format: the region's four planes are modelled directly.
- `Open`'s `malloc` of `aout_sys_t`, `AudioQueueNewOutput`, `AudioQueueStart`, `aout_VolumeSoftInit`, the ignored `OSStatus` values, and the `pf_play` hook: foreign AudioToolbox or aout calls with no visible behaviour. `Open` always returns VLC_SUCCESS and the model does not return a status.
- `Play` (empty) and `Close` (AudioQueueStop, AudioQueueDispose, free): no logic beyond foreign calls.
- The FIFO mutex: the callback is modelled as one sequential step.
- `aout_FifoPop` is not part of this model; it is taken to remove and return the FIFO's head, or nothing when the FIFO is empty.
- The byte offsets `x + pitch * y` are C `int`s; their overflow for planes of 2 GiB and more is not modelled.
- `subpicture_region_New` may allocate more lines than `height`. The model's planes have exactly `height` rows, the rows `OSDRegion` initialises.
- AudioQueue.Callback: requires that a popped payload fits the queue buffer (`i_buffer <= mAudioDataBytesCapacity`). The C `memcpy` does not check this. `Open` sets the output block to FRAME_SIZE frames of 4 bytes, which is exactly the 8192-byte capacity.
- Osd.CursorColumnInRange: stated for width >= 2 only. A 1-pixel-wide slider at position 100 puts the cursor at column -1, and `Geometry.SliderBox` only guarantees width >= 1.
- Draw.InvertedFilledRectDrawsNothing: stated for the filled style only. An outline with x1 > x2 still draws its two column segments, because the C code's column loop and row loop are independent.
- Draw.FilledTriangleWithinCorners: the row bound is stated only when y1 <= y2. With y2 = y1 - 1 the C loop still runs once and writes rows y1 and y2, which lie between y2 and y1 instead.
- Geometry.SliderAsWrittenAgrees: stated only for aspect ratios between 1:5 and 5:1 and for fields below 2^28; outside that range the Findings apply.
- The model uses the clipped drawing everywhere. The unchecked flat writes are modelled only for the reported cases (`Draw.FlatFilledRect`, `Draw.MuteStrokeOffset`), and shown to agree with the clipped drawing inside the rows.
- Sliders 1 pixel wide (for example the vertical slider of a 60x40 frame, or the horizontal slider of a 21x100 frame) draw at column 1, which is the slider's width: the vertical slider's left tick at :186, and the horizontal cursor, whose columns pos_x - 1..pos_x + 1 are -1..1 below position 100. The C code writes that byte into the row padding, or, when pitch == 1, into pixel (0, y + 1) of the next row; for a 2-row vertical slider that is one byte past the buffer. The model writes the padding byte as the C does, and clips the write only when pitch == 1.
- Speaker and mute icons 1 or 2 pixels wide (frames whose larger side is 20 to 59 pixels) have delta = 0, so their box and triangle reach column `width`, one past the icon's right edge. The C code writes that byte into the row padding, into the next row's first pixel, or past the end of the buffer on the last row. The model writes that byte into the row padding as the C does, and clips it only where the C would leave the row, that is when pitch == width.
- The other files of the repository shown alongside these are not modelled:
  - Qt playlist view: painting only.
  - `vout_internal.h`: declarations of a video output whose frame pools and render loop are implemented elsewhere.
  - `vlc_atomic.h`: concurrency primitives.
  - D-Bus headers: macros and declarations.
  - Objective-C headers: interface declarations.

## Findings

| source | as written | input that shows it | evidently intended | confidence | as-written member | corrected member |
|---|---|---|---|---|---|---|
| vlc/src/video_output/video_widgets.c:179-180 | When `(width - 2) * position < 100`, `pos_x == 0` and DrawRect writes column `pos_x - 1 == -1`, that is `a[-1 + pitch * y]` | Any position p with (width - 2)·p < 100, e.g. 0, or 2 on a 50-pixel slider (`Osd.CursorAtLeftEdge`). The write for (-1, 2) lands on pixel (pitch - 1, 1) of the row above. That pixel is on the outline's right column when pitch == width, so nothing visible changes; otherwise it is row padding. | The cursor clipped to the region: no byte outside its own row is written | not executed | Osd.CursorAtZeroWritesRowAbove | Draw.DrawRect |
| vlc/src/video_output/video_widgets.c:168-187 | A slider 1 pixel wide has its vertical tick at `width - 2 == -1`, and its horizontal cursor at position 100 at `pos_x == -1` | A 60x40 frame: the vertical slider is 1 x 28 and the tick for (-1, 14) lands on byte 14 * pitch - 1, pixel (pitch - 1, 13) of the row above | Ticks and cursor clipped to the region's own row | not executed | Osd.NarrowSliderWritesRowAbove | Draw.DrawRect |
| vlc/src/video_output/video_widgets.c:232-234 | The mute loop runs `i` from 1 to pitch - 1 and writes offset `i + (height - i - 1) * pitch` | Any region whose pitch exceeds its height, e.g. a 36-pixel mute icon (720x576 frame) on rows padded to 48 bytes: step i = 36 writes offset -12 | Invert only the diagonal pixels (i, height-1-i) that lie inside the plane | not executed | Osd.MuteStrokeLeavesPlane | Draw.InvertMuteStroke |
| vlc/src/video_output/video_widgets.c:163-171 | `i_visible_width - 2 * margin` (and the height analogue) is unsigned, so when the margin of the larger side exceeds half the smaller side it wraps, survives `__MAX(.., 1)` and becomes negative as an `int` | A 10x100 frame: horizontal slider width -10; a 100x10 frame: vertical slider height -10 | Width (height) clamped to at least 1 | not executed | Geometry.SliderBoxAsWritten | Geometry.SliderBox |

Where the code differs from a plain reading of its intent but does no harm, the model follows the code:
- An outline rectangle with inverted corners still draws pixels.
- The horizontal cursor range [0, width - 2] needs width >= 2.

Where it does harm, the regions the model builds use the intended behaviour instead: the signed geometry `Geometry.SliderBox` and the clipped write `Plane.Put`. The code as written is modelled by the as-written members of the table above.

=== FILE: audioqueue.dfy ===
/**
 The AudioQueue output of vlc/modules/audio_output/audioqueue.c.

 The host's audio queue calls AudioQueueCallback with a buffer that has
 finished playing. The callback pops one buffer from the output FIFO (unless
 it has no user data), copies it into the queue buffer or fills the queue
 buffer with silence, and enqueues the queue buffer again. Open primes the
 queue by running the callback, without user data, on freshly allocated
 buffers.

 The mutex around the FIFO becomes a plain sequential step, and the
 AudioToolbox calls become values: the buffers AudioQueueAllocateBuffer hands
 out are parameters, and AudioQueueEnqueueBuffer appends to `device`.
 aout_FifoPop is not part of this model: it is taken to remove and return the
 FIFO's head, or nothing when the FIFO is empty.
 */
module AudioQueue {
  import opened Options

  const FRAME_SIZE: nat := 2048
  const NUMBER_OF_BUFFERS: nat := 3
  /** The capacity Open asks for: FRAME_SIZE * 4 bytes. */
  const BUFFER_BYTES: nat := FRAME_SIZE * 4

  type Bytes = seq<bv8>

  /** An AudioQueueBuffer: mAudioData (its length is
      mAudioDataBytesCapacity) and mAudioDataByteSize. */
  datatype QueueBuffer = QueueBuffer(audioData: Bytes, byteSize: nat) {
    function Capacity(): nat { |audioData| }
  }

  /** The output FIFO of aout buffers (each holds its i_buffer payload bytes)
      and the device queue: every buffer enqueued so far, in order. */
  datatype Output = Output(fifo: seq<Bytes>, device: seq<QueueBuffer>)

  /** The bytes the device plays from a queue buffer. */
  function Played(b: QueueBuffer): Bytes
    requires b.byteSize <= b.Capacity()
  {
    b.audioData[..b.byteSize]
  }

  /** n bytes of silence. */
  function Silence(n: nat): (z: Bytes)
    ensures |z| == n && forall i :: 0 <= i < n ==> z[i] == 0
  {
    seq(n, _ => 0)
  }

  /** aout_FifoPop: the head and the rest, or nothing when the FIFO is empty. */
  function FifoPop(fifo: seq<Bytes>): (r: (Option<Bytes>, seq<Bytes>))
    ensures |fifo| == 0 ==> r == (None, fifo)
    ensures |fifo| > 0 ==> r.0 == Some(fifo[0]) && [fifo[0]] + r.1 == fifo
  {
    if |fifo| == 0 then (None, fifo) else (Some(fifo[0]), fifo[1..])
  }

  /** The callback copies a popped buffer with no check against the queue
      buffer's capacity: the popped payload must fit. */
  predicate HeadFits(hasUserData: bool, fifo: seq<Bytes>, target: QueueBuffer) {
    hasUserData && |fifo| > 0 ==> |fifo[0]| <= target.Capacity()
  }

  /** AudioQueueCallback. `hasUserData` says whether inUserData is non-null. */
  function Callback(hasUserData: bool, out: Output, target: QueueBuffer): (r: Output)
    requires HeadFits(hasUserData, out.fifo, target)
    ensures |r.device| == |out.device| + 1 && r.device[..|out.device|] == out.device
    ensures var b := r.device[|out.device|];
      && b.Capacity() == target.Capacity() && b.byteSize <= b.Capacity()
      && (hasUserData && |out.fifo| > 0 ==>
            && r.fifo == out.fifo[1..]
            && b.byteSize == |out.fifo[0]|
            && Played(b) == out.fifo[0]
            && b.audioData[b.byteSize..] == target.audioData[b.byteSize..])
      && (!(hasUserData && |out.fifo| > 0) ==>
            && r.fifo == out.fifo
            && b.byteSize == target.Capacity()
            && forall i :: 0 <= i < b.Capacity() ==> b.audioData[i] == 0)
  {
    var (popped, rest) := if hasUserData then FifoPop(out.fifo) else (None, out.fifo);
    var filled :=
      match popped
      case Some(payload) =>
        QueueBuffer(payload + target.audioData[|payload|..], |payload|)
      case None =>
        QueueBuffer(Silence(target.Capacity()), target.Capacity());
    Output(rest, out.device + [filled])
  }

  /** Every FIFO buffer the k-th of `targets` would receive fits in it. */
  predicate AllFit(fifo: seq<Bytes>, targets: seq<QueueBuffer>) {
    forall k :: 0 <= k < |targets| && k < |fifo| ==> |fifo[k]| <= targets[k].Capacity()
  }

  /** The k-th buffer a pump run enqueues after the first `base` of `device`
      plays the k-th FIFO payload, or silence once the FIFO has run dry. */
  predicate PumpedAt(fifo: seq<Bytes>, targets: seq<QueueBuffer>, device: seq<QueueBuffer>, base: nat, k: int)
    requires 0 <= k < |targets| && base + k < |device|
  {
    var b := device[base + k];
    && b.byteSize <= b.Capacity()
    && b.Capacity() == targets[k].Capacity()
    && Played(b) == (if k < |fifo| then fifo[k] else Silence(targets[k].Capacity()))
  }

  /** The callback run, with user data, once for each queue buffer in
      `targets`, in order. */
  function Pump(out: Output, targets: seq<QueueBuffer>): (r: Output)
    requires AllFit(out.fifo, targets)
    ensures |r.device| == |out.device| + |targets| && r.device[..|out.device|] == out.device
    ensures |targets| <= |out.fifo| ==> r.fifo == out.fifo[|targets|..]
    ensures |targets| > |out.fifo| ==> r.fifo == []
    ensures forall k :: 0 <= k < |targets| ==> PumpedAt(out.fifo, targets, r.device, |out.device|, k)
    decreases |targets|
  {
    if |targets| == 0 then out
    else
      var n := |targets| - 1;
      var before := Pump(out, targets[..n]);
      assert n < |out.fifo| ==> before.fifo[0] == out.fifo[n];
      var r := Callback(true, before, targets[n]);
      assert forall k :: 0 <= k < |targets| ==> PumpedAt(out.fifo, targets, r.device, |out.device|, k) by {
        forall k | 0 <= k < |targets|
          ensures PumpedAt(out.fifo, targets, r.device, |out.device|, k)
        {
          if k < n {
            assert r.device[..|before.device|] == before.device;
            assert r.device[|out.device| + k] == before.device[|out.device| + k];
            assert PumpedAt(out.fifo, targets[..n], before.device, |out.device|, k);
            assert targets[..n][k] == targets[k];
          } else {
            var b := r.device[|before.device|];
            assert |out.device| + k == |before.device|;
            if n >= |out.fifo| {
              assert |before.fifo| == 0;
              assert Played(b) == Silence(targets[k].Capacity());
            }
          }
        }
      }
      r
  }

  /** Draining the FIFO: pumping as many queue buffers as the FIFO holds
      plays exactly the FIFO's payloads, in order, and leaves it empty. */
  lemma {:induction false} PumpDrainsInOrder(out: Output, targets: seq<QueueBuffer>)
    requires |targets| == |out.fifo| && AllFit(out.fifo, targets)
    ensures var r := Pump(out, targets);
      && r.fifo == []
      && SizesFit(r.device[|out.device|..])
      && PlayedAll(r.device[|out.device|..]) == out.fifo
  {
    var r := Pump(out, targets);
    var enqueued := r.device[|out.device|..];
    forall k | 0 <= k < |enqueued|
      ensures enqueued[k].byteSize <= enqueued[k].Capacity() && Played(enqueued[k]) == out.fifo[k]
    {
      assert enqueued[k] == r.device[|out.device| + k];
      assert PumpedAt(out.fifo, targets, r.device, |out.device|, k);
    }
    assert PlayedAll(enqueued) == out.fifo by {
      PlayedAllIndex(enqueued);
    }
  }

  /** Every buffer reports no more bytes than it holds. */
  predicate SizesFit(bs: seq<QueueBuffer>) {
    forall k :: 0 <= k < |bs| ==> bs[k].byteSize <= bs[k].Capacity()
  }

  /** The played bytes of each buffer, in order. */
  function PlayedAll(bs: seq<QueueBuffer>): seq<Bytes>
    requires SizesFit(bs)
  {
    seq(|bs|, k requires 0 <= k < |bs| => Played(bs[k]))
  }

  lemma PlayedAllIndex(bs: seq<QueueBuffer>)
    requires SizesFit(bs)
    ensures |PlayedAll(bs)| == |bs|
    ensures forall k :: 0 <= k < |bs| ==> PlayedAll(bs)[k] == Played(bs[k])
  {
  }

  /** AudioStreamBasicDescription as Open fills it in. `linearPcm` is
      mFormatID == kAudioFormatLinearPCM; `signedInteger` and `bigEndian` are
      the kLinearPCMFormatFlagIsSignedInteger and kLinearPCMFormatFlagIsBigEndian
      bits of mFormatFlags. */
  datatype DeviceFormat = DeviceFormat(
    sampleRate: nat, linearPcm: bool, signedInteger: bool, bigEndian: bool,
    bytesPerPacket: nat, framesPerPacket: nat,
    bytesPerFrame: nat, channelsPerFrame: nat, bitsPerChannel: nat)

  /** A sample format of the aout core: its width and encoding. */
  datatype SampleCodec = SampleCodec(bits: nat, signed: bool, littleEndian: bool)

  /** VLC_CODEC_S16L: signed 16-bit little-endian samples. */
  const S16L := SampleCodec(16, true, true)

  /** The aout output format Open sets: the sample codec, the number of
      physical channels (AOUT_CHAN_LEFT | AOUT_CHAN_RIGHT is 2), the rate in
      Hz, and the number of frames per block. */
  datatype OutputFormat = OutputFormat(codec: SampleCodec, channels: nat, rate: nat, samples: nat)

  /** Open. `buffers` are the buffers AudioQueueAllocateBuffer hands out
      for the FRAME_SIZE * 4 bytes asked for; their contents are whatever the
      allocator left there. */
  method Open(fifo: seq<Bytes>, buffers: seq<QueueBuffer>)
    returns (out: Output, device: DeviceFormat, output: OutputFormat)
    requires |buffers| == NUMBER_OF_BUFFERS
    requires forall i :: 0 <= i < |buffers| ==> buffers[i].Capacity() == FRAME_SIZE * 4
    ensures out.fifo == fifo
    ensures |out.device| == NUMBER_OF_BUFFERS
    ensures forall i :: 0 <= i < |out.device| ==>
      && out.device[i].byteSize == out.device[i].Capacity() == BUFFER_BYTES
      && forall j :: 0 <= j < BUFFER_BYTES ==> out.device[i].audioData[j] == 0
    ensures output.codec == S16L && output.channels == 2 && output.rate == 44100 && output.samples == FRAME_SIZE
    ensures device.linearPcm && device.framesPerPacket == 1
    ensures device.signedInteger == output.codec.signed && device.bigEndian == !output.codec.littleEndian
    ensures device.sampleRate == output.rate && device.channelsPerFrame == output.channels
    ensures device.bitsPerChannel == output.codec.bits
    ensures device.bytesPerFrame == device.channelsPerFrame * device.bitsPerChannel / 8
    ensures device.bytesPerPacket == device.bytesPerFrame * device.framesPerPacket
    ensures output.samples * device.bytesPerFrame == BUFFER_BYTES
  {
    device := DeviceFormat(44100, true, true, false, 4, 1, 4, 2, 16);
    out := Output(fifo, []);
    var i := 0;
    while i < NUMBER_OF_BUFFERS
      invariant 0 <= i <= NUMBER_OF_BUFFERS
      invariant out.fifo == fifo && |out.device| == i
      invariant forall k :: 0 <= k < i ==>
        && out.device[k].byteSize == out.device[k].Capacity() == BUFFER_BYTES
        && forall j :: 0 <= j < BUFFER_BYTES ==> out.device[k].audioData[j] == 0
    {
      out := Callback(false, out, buffers[i]);
      i := i + 1;
    }
    output := OutputFormat(S16L, 2, 44100, FRAME_SIZE);
  }

  /** With no user data (priming), the callback never touches the FIFO and
      always enqueues a full buffer of silence. */
  lemma PrimingIgnoresFifo(out: Output, target: QueueBuffer)
    ensures var r := Callback(false, out, target);
      && r.fifo == out.fifo
      && r.device == out.device + [QueueBuffer(Silence(target.Capacity()), target.Capacity())]
  {
  }
}

=== FILE: draw.dfy ===
/**
 The rasterisers of vlc/src/video_output/video_widgets.c: DrawRect,
 DrawTriangle and the diagonal stroke of the mute icon. Each writes 0xff
 ("opaque") into a region's alpha plane.

 Every drawing has a reference definition (`Rect`, `Triangle`, `MuteStroke`)
 that says pixel by pixel what the drawing covers, and a method that performs
 the writes in the order of the C loops and is proved equal to it. The
 methods write through `Put`, which drops pixels outside the plane where the
 C code would write into a neighbouring row or outside the buffer.
 */
module Draw {
  import opened Plane

  /** STYLE_EMPTY (outline) or STYLE_FILLED. */
  datatype Style = Empty | Filled

  const OPAQUE: bv8 := 0xff

  /** C's `/` on int, which truncates toward zero. */
  function TDiv(a: int, b: int): (q: int)
    requires b > 0
    ensures a >= 0 ==> q == a / b
    ensures a < 0 ==> q == -((-a) / b)
  {
    if a >= 0 then a / b else -((-a) / b)
  }

  // ---------------------------------------------------------------------------
  // Rectangles

  /** The pixels DrawRect sets. A filled rectangle is the inclusive box
      [x1..x2]x[y1..y2]. An outline is drawn by two independent loops: columns
      x1 and x2 over rows y1..y2, and rows y1 and y2 over columns x1..x2. */
  predicate RectCovers(style: Style, x1: int, y1: int, x2: int, y2: int, x: int, y: int) {
    match style
    case Filled => x1 <= x <= x2 && y1 <= y <= y2
    case Empty =>
      || (y1 <= y <= y2 && (x == x1 || x == x2))
      || (x1 <= x <= x2 && (y == y1 || y == y2))
  }

  /** `p` with every covered pixel of the rectangle set to OPAQUE. */
  function Rect(p: Plane, style: Style, x1: int, y1: int, x2: int, y2: int): (q: Plane)
    ensures SameShape(p, q)
  {
    seq(|p|, y requires 0 <= y < |p| =>
      seq(|p[y]|, x requires 0 <= x < |p[y]| =>
        if RectCovers(style, x1, y1, x2, y2, x, y) then OPAQUE else p[y][x]))
  }

  /** DrawRect, writing pixels in the order of the C loops. */
  method DrawRect(p: Plane, style: Style, x1: int, y1: int, x2: int, y2: int) returns (q: Plane)
    ensures q == Rect(p, style, x1, y1, x2, y2)
    ensures forall y, x :: InPlane(p, x, y) ==>
      q[y][x] == (if RectCovers(style, x1, y1, x2, y2, x, y) then OPAQUE else p[y][x])
  {
    q := p;
    if style == Filled {
      var y := y1;
      while y <= y2
        invariant SameShape(p, q)
        invariant y == y1 || y1 <= y <= y2 + 1
        invariant forall j, i :: InPlane(p, i, j) ==>
          q[j][i] == (if x1 <= i <= x2 && y1 <= j < y then OPAQUE else p[j][i])
      {
        var x := x1;
        while x <= x2
          invariant SameShape(p, q)
          invariant x == x1 || x1 <= x <= x2 + 1
          invariant forall j, i :: InPlane(p, i, j) ==>
            q[j][i] == (if (x1 <= i <= x2 && y1 <= j < y) || (j == y && x1 <= i < x) then OPAQUE else p[j][i])
        {
          q := Put(q, x, y, OPAQUE);
          x := x + 1;
        }
        y := y + 1;
      }
    } else {
      var y := y1;
      while y <= y2
        invariant SameShape(p, q)
        invariant y == y1 || y1 <= y <= y2 + 1
        invariant forall j, i :: InPlane(p, i, j) ==>
          q[j][i] == (if y1 <= j < y && (i == x1 || i == x2) then OPAQUE else p[j][i])
      {
        q := Put(q, x1, y, OPAQUE);
        q := Put(q, x2, y, OPAQUE);
        y := y + 1;
      }
      var x := x1;
      while x <= x2
        invariant SameShape(p, q)
        invariant x == x1 || x1 <= x <= x2 + 1
        invariant forall j, i :: InPlane(p, i, j) ==>
          q[j][i] == (if (y1 <= j <= y2 && (i == x1 || i == x2)) || (x1 <= i < x && (j == y1 || j == y2))
                      then OPAQUE else p[j][i])
      {
        q := Put(q, x, y1, OPAQUE);
        q := Put(q, x, y2, OPAQUE);
        x := x + 1;
      }
    }
    Extensionality(q, Rect(p, style, x1, y1, x2, y2));
  }

  /** A filled rectangle with x1 > x2 or y1 > y2 draws nothing. */
  lemma {:induction false} InvertedFilledRectDrawsNothing(p: Plane, x1: int, y1: int, x2: int, y2: int)
    requires x1 > x2 || y1 > y2
    ensures Rect(p, Filled, x1, y1, x2, y2) == p
  {
    Extensionality(Rect(p, Filled, x1, y1, x2, y2), p);
  }

  /** An outline covers only pixels of the filled rectangle with the same
      corners when the corners are ordered, and it covers exactly the
      rectangle's border: the filled pixels on row y1 or y2 or column x1 or x2. */
  lemma OutlineIsBorderOfBox(x1: int, y1: int, x2: int, y2: int, x: int, y: int)
    requires x1 <= x2 && y1 <= y2
    ensures RectCovers(Empty, x1, y1, x2, y2, x, y) <==>
      RectCovers(Filled, x1, y1, x2, y2, x, y) && (x == x1 || x == x2 || y == y1 || y == y2)
  {
  }

  /** Drawing the same rectangle twice is the same as drawing it once, and
      a rectangle keeps a binary alpha plane binary. */
  lemma {:induction false} RectIdempotentAndBinary(p: Plane, style: Style, x1: int, y1: int, x2: int, y2: int)
    ensures Rect(Rect(p, style, x1, y1, x2, y2), style, x1, y1, x2, y2) == Rect(p, style, x1, y1, x2, y2)
    ensures Binary(p) ==> Binary(Rect(p, style, x1, y1, x2, y2))
  {
    var q := Rect(p, style, x1, y1, x2, y2);
    Extensionality(Rect(q, style, x1, y1, x2, y2), q);
  }

  // ---------------------------------------------------------------------------
  // Triangles

  /** `mid - y1` in the C code: how many rows below y1 the loop reaches. */
  function Reach(y1: int, y2: int): int {
    TDiv(y2 - y1, 2)
  }

  /** How far column x lies from x1 in the drawing direction (rightwards
      when x2 >= x1, leftwards otherwise). */
  function Along(x1: int, x2: int, x: int): int {
    if x2 >= x1 then x - x1 else x1 - x
  }

  /** Whether a span of half-width h covers the pixel `dx` columns from x1:
      a filled span covers 0..h but never goes past x2 (`len` columns away);
      an outline span sets only its two end points x1 and x1 +/- h. */
  predicate SpanCovers(style: Style, dx: int, h: int, len: int) {
    match style
    case Filled => 0 <= dx <= h && dx <= len
    case Empty => dx == 0 || dx == h
  }

  /** The pixels written by the rows h = 0..reach of DrawTriangle: row y1+h
      and row y2-h both get the span of half-width h. */
  predicate TriangleRowsCover(style: Style, x1: int, y1: int, x2: int, y2: int, reach: int, x: int, y: int) {
    var dx := Along(x1, x2, x);
    var len := Along(x1, x2, x2);
    || (0 <= y - y1 <= reach && SpanCovers(style, dx, y - y1, len))
    || (0 <= y2 - y <= reach && SpanCovers(style, dx, y2 - y, len))
  }

  /** The pixels DrawTriangle sets. */
  predicate TriangleCovers(style: Style, x1: int, y1: int, x2: int, y2: int, x: int, y: int) {
    TriangleRowsCover(style, x1, y1, x2, y2, Reach(y1, y2), x, y)
  }

  /** `p` with every covered pixel of the triangle set to OPAQUE. */
  function Triangle(p: Plane, style: Style, x1: int, y1: int, x2: int, y2: int): (q: Plane)
    ensures SameShape(p, q)
  {
    seq(|p|, y requires 0 <= y < |p| =>
      seq(|p[y]|, x requires 0 <= x < |p[y]| =>
        if TriangleCovers(style, x1, y1, x2, y2, x, y) then OPAQUE else p[y][x]))
  }

  /** DrawTriangle, writing pixels in the order of the C loops: for
      h = 0..mid-y1, rows y1+h and y2-h get the same span. */
  method DrawTriangle(p: Plane, style: Style, x1: int, y1: int, x2: int, y2: int) returns (q: Plane)
    ensures q == Triangle(p, style, x1, y1, x2, y2)
    ensures forall y, x :: InPlane(p, x, y) ==>
      q[y][x] == (if TriangleCovers(style, x1, y1, x2, y2, x, y) then OPAQUE else p[y][x])
  {
    q := p;
    var mid := y1 + TDiv(y2 - y1, 2);
    var y := y1;
    while y <= mid
      invariant SameShape(p, q)
      invariant y == y1 || y1 <= y <= mid + 1
      invariant forall j, i :: InPlane(p, i, j) ==>
        q[j][i] == (if TriangleRowsCover(style, x1, y1, x2, y2, y - y1 - 1, i, j) then OPAQUE else p[j][i])
    {
      var h := y - y1;
      var q' := DrawSpans(q, style, x1, x2, y, y2 - h, h);
      forall j, i | InPlane(p, i, j)
        ensures q'[j][i] == (if TriangleRowsCover(style, x1, y1, x2, y2, h, i, j) then OPAQUE else p[j][i])
      {
        assert InPlane(q, i, j);
      }
      q := q';
      y := y + 1;
    }
    Extensionality(q, Triangle(p, style, x1, y1, x2, y2));
  }

  /** One step of DrawTriangle's outer loop: the span of half-width h from x1
      towards x2, on row `top` and on row `bottom`. The filled inner loop
      steps x away from x1 while it stays within h columns of x1 and does not
      pass x2; it counts the step in `dx`. */
  method DrawSpans(p: Plane, style: Style, x1: int, x2: int, top: int, bottom: int, h: nat) returns (q: Plane)
    ensures SameShape(p, q)
    ensures forall j, i :: InPlane(p, i, j) ==>
      q[j][i] == (if (j == top || j == bottom) && SpanCovers(style, Along(x1, x2, i), h, Along(x1, x2, x2))
                  then OPAQUE else p[j][i])
  {
    q := p;
    var right := x2 >= x1;
    var len := Along(x1, x2, x2);
    if style == Filled {
      var dx := 0;
      while dx <= h && dx <= len
        invariant SameShape(p, q)
        invariant 0 <= dx <= h + 1 && dx <= len + 1
        invariant forall j, i :: InPlane(p, i, j) ==>
          q[j][i] == (if (j == top || j == bottom) && 0 <= Along(x1, x2, i) < dx then OPAQUE else p[j][i])
      {
        var x := if right then x1 + dx else x1 - dx;
        q := Put(q, x, top, OPAQUE);
        q := Put(q, x, bottom, OPAQUE);
        dx := dx + 1;
      }
    } else {
      var xh := if right then x1 + h else x1 - h;
      q := Put(q, x1, top, OPAQUE);
      q := Put(q, xh, top, OPAQUE);
      q := Put(q, x1, bottom, OPAQUE);
      q := Put(q, xh, bottom, OPAQUE);
    }
  }

  /** Rows y and y1 + y2 - y receive the same span, so a triangle's pixels
      are mirror-symmetric about its middle row. */
  lemma TriangleCoversSymmetric(style: Style, x1: int, y1: int, x2: int, y2: int, x: int, y: int)
    ensures TriangleCovers(style, x1, y1, x2, y2, x, y) <==> TriangleCovers(style, x1, y1, x2, y2, x, y1 + y2 - y)
  {
  }

  /** Drawn on a fully transparent plane, a triangle is mirror-symmetric
      about its middle row wherever both rows lie in the plane. */
  lemma {:induction false} TriangleOnBlankIsSymmetric(p: Plane, style: Style, x1: int, y1: int, x2: int, y2: int)
    requires Uniform(p, 0x00)
    ensures var q := Triangle(p, style, x1, y1, x2, y2);
      forall y, x :: InPlane(q, x, y) && InPlane(q, x, y1 + y2 - y) ==> q[y][x] == q[y1 + y2 - y][x]
  {
    var q := Triangle(p, style, x1, y1, x2, y2);
    forall y, x | InPlane(q, x, y) && InPlane(q, x, y1 + y2 - y)
      ensures q[y][x] == q[y1 + y2 - y][x]
    {
      TrianglePixelSymmetric(p, style, x1, y1, x2, y2, x, y);
    }
  }

  /** The symmetry for one pixel and its mirror image. */
  lemma TrianglePixelSymmetric(p: Plane, style: Style, x1: int, y1: int, x2: int, y2: int, x: int, y: int)
    requires Uniform(p, 0x00) && InPlane(p, x, y) && InPlane(p, x, y1 + y2 - y)
    ensures var q := Triangle(p, style, x1, y1, x2, y2);
      InPlane(q, x, y) && InPlane(q, x, y1 + y2 - y) && q[y][x] == q[y1 + y2 - y][x]
  {
    TriangleCoversSymmetric(style, x1, y1, x2, y2, x, y);
  }

  /** A filled triangle only covers columns between x1 and x2, on the side
      of x1 chosen by whether x2 >= x1, and only rows between y1 and y2. */
  lemma FilledTriangleWithinCorners(x1: int, y1: int, x2: int, y2: int, x: int, y: int)
    requires TriangleCovers(Filled, x1, y1, x2, y2, x, y)
    ensures x2 >= x1 ==> x1 <= x <= x2
    ensures x2 < x1 ==> x2 <= x <= x1
    ensures y1 <= y2 ==> y1 <= y <= y2
  {
  }

  /** A triangle keeps a binary alpha plane binary. */
  lemma TriangleKeepsBinary(p: Plane, style: Style, x1: int, y1: int, x2: int, y2: int)
    requires Binary(p)
    ensures Binary(Triangle(p, style, x1, y1, x2, y2))
  {
  }

  // ---------------------------------------------------------------------------
  // The mute stroke

  /** Pixel (x, y) lies on the mute icon's diagonal: column i >= 1 on row
      lines - 1 - i. */
  predicate OnMuteStroke(lines: int, x: int, y: int) {
    1 <= x && x + y == lines - 1
  }

  /** `p` with every pixel of the diagonal inverted (`0xff - a[k]`). */
  function MuteStroke(p: Plane): (q: Plane)
    ensures SameShape(p, q)
  {
    seq(|p|, y requires 0 <= y < |p| =>
      seq(|p[y]|, x requires 0 <= x < |p[y]| =>
        if OnMuteStroke(|p|, x, y) then OPAQUE - p[y][x] else p[y][x]))
  }

  /** The C loop `for (i = 1; i < pitch; i++)` inverting pixel
      (i, height - i - 1), with the row checked against the plane: rows above
      the top of the plane are skipped. */
  method InvertMuteStroke(p: Plane, pitch: nat) returns (q: Plane)
    requires Shaped(p, pitch, |p|)
    ensures q == MuteStroke(p)
    ensures forall y, x :: InPlane(p, x, y) ==>
      q[y][x] == (if OnMuteStroke(|p|, x, y) then OPAQUE - p[y][x] else p[y][x])
  {
    q := p;
    var height := |p|;
    var i := 1;
    while i < pitch
      invariant SameShape(p, q)
      invariant i == 1 || 1 <= i <= pitch
      invariant forall j, k :: InPlane(p, k, j) ==>
        q[j][k] == (if OnMuteStroke(height, k, j) && k < i then OPAQUE - p[j][k] else p[j][k])
    {
      var row := height - i - 1;
      if 0 <= row {
        q := Put(q, i, row, OPAQUE - q[row][i]);
      }
      i := i + 1;
    }
    Extensionality(q, MuteStroke(p));
  }

  /** Inverting the diagonal twice restores the plane, and inverting it
      keeps a binary plane binary. */
  lemma {:induction false} MuteStrokeInvolution(p: Plane)
    ensures MuteStroke(MuteStroke(p)) == p
    ensures Binary(p) ==> Binary(MuteStroke(p))
  {
    Extensionality(MuteStroke(MuteStroke(p)), p);
  }

  // ---------------------------------------------------------------------------
  // The C code as written, on the flat buffer

  /** DrawRect with STYLE_FILLED as the C writes it: every offset
      x + pitch * y of the box is set in the flat buffer `a`, with no check
      that x lies inside a row. Offsets outside the buffer are not modelled. */
  function FlatFilledRect(a: seq<bv8>, pitch: nat, x1: int, y1: int, x2: int, y2: int): (b: seq<bv8>)
    ensures |b| == |a|
  {
    seq(|a|, k requires 0 <= k < |a| =>
      if exists x, y :: x1 <= x <= x2 && y1 <= y <= y2 && k == Offset(pitch, x, y) then OPAQUE else a[k])
  }

  /** When the box lies within the columns of a row, the unchecked flat
      writes and the clipped drawing agree: the C code then draws exactly
      `Rect` on the plane's flat buffer. */
  lemma {:induction false} FlatFilledRectInsideRows(p: Plane, pitch: nat, x1: int, y1: int, x2: int, y2: int)
    requires Shaped(p, pitch, |p|)
    requires 0 <= x1 && x2 < pitch
    ensures Shaped(Rect(p, Filled, x1, y1, x2, y2), pitch, |p|)
    ensures FlatFilledRect(Flatten(p, pitch), pitch, x1, y1, x2, y2) == Flatten(Rect(p, Filled, x1, y1, x2, y2), pitch)
  {
    var q := Rect(p, Filled, x1, y1, x2, y2);
    var flat := FlatFilledRect(Flatten(p, pitch), pitch, x1, y1, x2, y2);
    forall k | 0 <= k < pitch * |p|
      ensures flat[k] == Flatten(q, pitch)[k]
    {
      PixelOfOffset(pitch, |p|, k);
      var x, y := k % pitch, k / pitch;
      assert Flatten(q, pitch)[k] == q[y][x];
      assert Flatten(p, pitch)[k] == p[y][x];
      assert InPlane(p, x, y);
      if RectCovers(Filled, x1, y1, x2, y2, x, y) {
        assert x1 <= x <= x2 && y1 <= y <= y2 && k == Offset(pitch, x, y);
      } else if exists x', y' :: x1 <= x' <= x2 && y1 <= y' <= y2 && k == Offset(pitch, x', y') {
        var x', y' :| x1 <= x' <= x2 && y1 <= y' <= y2 && k == Offset(pitch, x', y');
        DivModUnique(k, pitch, y', x');
        assert false;
      }
    }
  }

  /** The offset the mute-icon loop inverts at step i. */
  function MuteStrokeOffset(pitch: nat, height: int, i: int): int {
    i + (height - i - 1) * pitch
  }

  /** While i is below the height, step i of the mute loop inverts the byte
      of the diagonal pixel (i, height - 1 - i), which lies in the buffer;
      from i = height on (reached only when pitch > height), the offset is
      negative: the byte lies before the buffer. */
  lemma {:induction false} MuteStrokeOffsetOnDiagonal(pitch: nat, height: nat, i: int)
    requires 1 <= i < pitch
    ensures i < height ==>
      && OnMuteStroke(height, i, height - 1 - i)
      && MuteStrokeOffset(pitch, height, i) == Offset(pitch, i, height - 1 - i)
      && 0 <= MuteStrokeOffset(pitch, height, i) < pitch * height
    ensures i >= height ==> MuteStrokeOffset(pitch, height, i) < 0
  {
    if i < height {
      OffsetInBuffer(pitch, height, i, height - 1 - i);
      assert (height - i - 1) * pitch == pitch * (height - 1 - i);
    } else {
      MulMono(pitch, height - i - 1, -1);
      assert (height - i - 1) * pitch == pitch * (height - i - 1);
    }
  }
}

=== FILE: geometry.dfy ===
/**
 Placement and size of the OSD slider and icon regions, computed from the
 source video format (OSDSlider and OSDIcon in
 vlc/src/video_output/video_widgets.c).

 The C code scales by floating-point ratios (0.10, 0.05, 0.025, 0.07) and
 truncates to int. This model uses the exact decimal fractions on integers:
 for non-negative operands, truncating `n * 0.10` is `n / 10`, and so on. The
 icon's x is `A - 0.07 * size` truncated, which for a non-negative result is
 `A - ceil(7 * size / 100)`.

 The format's fields are unsigned in C, and `OSDSlider` subtracts in unsigned
 arithmetic. `SliderBox` computes with signed integers (the evident intent);
 `SliderBoxAsWritten` reproduces the 32-bit wrap-around.
 */
module Geometry {
  import opened Plane

  /** The fields of video_format_t that the widgets read. */
  datatype VideoFormat = VideoFormat(
    width: nat, height: nat,
    xOffset: nat, yOffset: nat,
    visibleWidth: nat, visibleHeight: nat)

  /** A region's position in the video and its size. */
  datatype Box = Box(x: int, y: int, width: int, height: int)

  /** __MAX and __MIN. */
  function Max(a: int, b: int): int { if a > b then a else b }
  function Min(a: int, b: int): int { if a < b then a else b }

  /** The larger visible dimension, which all ratios scale. */
  function Size(f: VideoFormat): nat {
    Max(f.visibleWidth, f.visibleHeight)
  }

  /** `size * 0.10`. */
  function SliderMargin(f: VideoFormat): nat {
    Size(f) / 10
  }

  /** The region of a horizontal slider (near the bottom edge, spanning the
      width less a margin on each side) or of a vertical slider (near the
      right edge, spanning the height less a margin at top and bottom). */
  function SliderBox(horizontal: bool, f: VideoFormat): (b: Box)
    ensures b.width >= 1 && b.height >= 1
    ensures horizontal ==> b.x <= f.visibleWidth - b.width && b.y >= 0
    ensures !horizontal ==> b.y <= f.visibleHeight - b.height && b.x >= 0
  {
    var margin := SliderMargin(f);
    if horizontal then
      var width := Max(f.visibleWidth - 2 * margin, 1);
      var height := Max(f.visibleHeight / 20, 1);
      Box(Min(f.xOffset + margin, f.visibleWidth - width),
          Max(f.yOffset + f.visibleHeight - margin, 0),
          width, height)
    else
      var width := Max(f.visibleWidth / 40, 1);
      var height := Max(f.visibleHeight - 2 * margin, 1);
      Box(Max(f.xOffset + f.visibleWidth - margin, 0),
          Min(f.yOffset + margin, f.visibleHeight - height),
          width, height)
  }

  /** When the frame is at least twice the margin wide (tall), a horizontal
      (vertical) slider keeps one margin free on each side of it. */
  lemma SliderMarginsSymmetric(horizontal: bool, f: VideoFormat)
    requires f.xOffset == 0 && f.yOffset == 0
    requires horizontal ==> 2 * SliderMargin(f) < f.visibleWidth
    requires !horizontal ==> 2 * SliderMargin(f) < f.visibleHeight
    ensures var b := SliderBox(horizontal, f);
      if horizontal then b.x == SliderMargin(f) && b.x + b.width == f.visibleWidth - SliderMargin(f)
      else b.y == SliderMargin(f) && b.y + b.height == f.visibleHeight - SliderMargin(f)
  {
  }

  /** `size * 0.05`: an icon's side. */
  function IconSize(f: VideoFormat): nat {
    Size(f) / 20
  }

  /** `size * 0.07`, rounded down and rounded up. */
  function IconMarginFloor(f: VideoFormat): nat {
    Size(f) * 7 / 100
  }
  function IconMarginCeil(f: VideoFormat): nat {
    (Size(f) * 7 + 99) / 100
  }

  /** The region of an icon: a square near the top-right corner, pushed
      right to no further than column 0 and up so that it ends above the
      bottom of the visible frame. */
  function IconBox(f: VideoFormat): (b: Box)
    ensures b.width == b.height && b.width >= 0
    ensures b.x >= 0
    ensures b.y <= f.visibleHeight - b.height
  {
    var s := IconSize(f);
    Box(Max(f.xOffset + f.visibleWidth - IconMarginCeil(f) - s, 0),
        Min(f.yOffset + IconMarginFloor(f), f.visibleHeight - s),
        s, s)
  }

  /** When the frame leaves room for it, an icon keeps the margin (rounded
      up) between its right edge and the right edge of the visible frame,
      and the margin (rounded down) above it. */
  lemma IconKeepsMargins(f: VideoFormat)
    requires f.xOffset == 0 && f.yOffset == 0
    requires IconMarginCeil(f) + IconSize(f) <= f.visibleWidth
    requires IconMarginFloor(f) + IconSize(f) <= f.visibleHeight
    ensures var b := IconBox(f);
      && b.x + b.width + IconMarginCeil(f) == f.visibleWidth
      && b.y == IconMarginFloor(f)
  {
  }

  // ---------------------------------------------------------------------------
  // OSDSlider as written: unsigned 32-bit arithmetic

  const TWO_32: nat := 0x1_0000_0000
  const TWO_31: int := 0x8000_0000

  /** The value of an `unsigned int` expression whose exact value is v. */
  function U32(v: int): (u: nat)
    ensures u < TWO_32
    ensures 0 <= v < TWO_32 ==> u == v
  {
    v % TWO_32
  }

  /** Assigning an `unsigned int` to an `int` (two's complement). */
  function I32(u: nat): (i: int)
    requires u < TWO_32
    ensures -TWO_31 <= i < TWO_31
    ensures u < TWO_31 ==> i == u
  {
    if u >= TWO_31 then u - TWO_32 else u
  }

  /** Every field of the format fits in an int. */
  predicate FitsInt(f: VideoFormat) {
    f.width < TWO_31 && f.height < TWO_31 && f.xOffset < TWO_31 && f.yOffset < TWO_31
    && f.visibleWidth < TWO_31 && f.visibleHeight < TWO_31
  }

  /** `__MAX(side - 2 * margin, 1)` computed in unsigned arithmetic and stored
      in an int: the difference itself whenever it is not 0, even when it is
      negative, and 1 for 0. */
  function WrappedLength(side: nat, margin: nat): int {
    if side == 2 * margin then 1 else side - 2 * margin
  }

  /** The unsigned difference of a side and twice its margin, read back as
      an int, is the signed difference. */
  lemma {:induction false} UnsignedDifference(side: nat, margin: nat)
    requires side < TWO_31 && 2 * margin < TWO_31
    ensures var wide := U32(side - 2 * margin);
      I32(if wide > 1 then wide else 1) == WrappedLength(side, margin)
  {
    var v := side - 2 * margin;
    if v < 0 {
      DivModUnique(v, TWO_32, -1, v + TWO_32);
    }
  }

  /** OSDSlider's geometry with C's conversions: `i_visible_width - 2 * margin`
      and the other differences involving a format field are unsigned, so a
      negative difference wraps to a large value, survives __MAX(.., 1) and
      becomes negative again when stored in an int. */
  function SliderBoxAsWritten(horizontal: bool, f: VideoFormat): (b: Box)
    requires FitsInt(f)
    ensures horizontal ==> b.width == WrappedLength(f.visibleWidth, SliderMargin(f))
    ensures !horizontal ==> b.height == WrappedLength(f.visibleHeight, SliderMargin(f))
    ensures horizontal ==> b.height == Max(f.visibleHeight / 20, 1)
    ensures !horizontal ==> b.width == Max(f.visibleWidth / 40, 1)
  {
    var margin := SliderMargin(f);
    UnsignedDifference(f.visibleWidth, margin);
    UnsignedDifference(f.visibleHeight, margin);
    if horizontal then
      var wide := U32(f.visibleWidth - 2 * margin);
      var width := I32(if wide > 1 then wide else 1);
      var height := Max(f.visibleHeight / 20, 1);
      Box(I32(Min(U32(f.xOffset + margin), U32(f.visibleWidth - width))),
          I32(U32(f.yOffset + f.visibleHeight - margin)),
          width, height)
    else
      var width := Max(f.visibleWidth / 40, 1);
      var tall := U32(f.visibleHeight - 2 * margin);
      var height := I32(if tall > 1 then tall else 1);
      Box(I32(U32(f.xOffset + f.visibleWidth - margin)),
          I32(Min(U32(f.yOffset + margin), U32(f.visibleHeight - height))),
          width, height)
  }

  /** A 10x100 frame: the horizontal slider's width wraps to -10 as written,
      while the intended width is 1. */
  lemma TallFrameWrapsSliderWidth()
    ensures var f := VideoFormat(10, 100, 0, 0, 10, 100);
      SliderBoxAsWritten(true, f).width == -10 && SliderBox(true, f).width == 1
  {
  }

  /** A 100x10 frame: the vertical slider's height wraps to -10 as written. */
  lemma WideFrameWrapsSliderHeight()
    ensures var f := VideoFormat(100, 10, 0, 0, 100, 10);
      SliderBoxAsWritten(false, f).height == -10 && SliderBox(false, f).height == 1
  {
  }

  /** For frames whose aspect ratio lies between 1:5 and 5:1 (and whose
      fields are far from the int range), nothing wraps and the C geometry
      is the intended one. */
  lemma SliderAsWrittenAgrees(horizontal: bool, f: VideoFormat)
    requires 1 <= f.visibleWidth && 1 <= f.visibleHeight
    requires f.visibleWidth <= 5 * f.visibleHeight && f.visibleHeight <= 5 * f.visibleWidth
    requires f.xOffset < 0x1000_0000 && f.yOffset < 0x1000_0000
    requires f.visibleWidth < 0x1000_0000 && f.visibleHeight < 0x1000_0000
    requires f.width < TWO_31 && f.height < TWO_31
    ensures SliderBoxAsWritten(horizontal, f) == SliderBox(horizontal, f)
  {
    var m := SliderMargin(f);
    assert 2 * m <= f.visibleWidth && 2 * m <= f.visibleHeight;
  }
}

=== FILE: osd.dfy ===
/**
 The OSD regions of vlc/src/video_output/video_widgets.c: OSDRegion creates
 a white, fully transparent YUVA picture, OSDSlider and OSDIcon size it from
 the source format and draw the widget into its alpha plane.

 subpicture_region_New is not part of this model: its outcome is the
 parameter `pitch`, None when the allocation fails (the C code returns NULL)
 and otherwise the row length, in bytes, of the planes it allocated.
 */
module Osd {
  import opened Options
  import opened Plane
  import opened Draw
  import opened Geometry

  /** The widget kinds (OSD_HOR_SLIDER, OSD_VERT_SLIDER, OSD_PLAY_ICON,
      OSD_PAUSE_ICON, OSD_SPEAKER_ICON, OSD_MUTE_ICON). */
  datatype WidgetType = HorizontalSlider | VerticalSlider | PlayIcon | PauseIcon | SpeakerIcon | MuteIcon {
    predicate IsSlider() {
      this == HorizontalSlider || this == VerticalSlider
    }
  }

  /** The initial byte of each plane: white (Y = 0xff, U = V = 0x80) and
      fully transparent (A = 0x00). */
  const LUMA: bv8 := 0xff
  const CHROMA: bv8 := 0x80
  const TRANSPARENT: bv8 := 0x00

  /** A subpicture region: its position in the video, its size, and its
      YUVA picture of `height` rows of `pitch` bytes per plane. */
  datatype Region = Region(
    x: int, y: int, width: nat, height: nat, pitch: nat,
    luma: Plane, cb: Plane, cr: Plane, alpha: Plane)

  predicate WellFormed(r: Region) {
    && r.width <= r.pitch
    && Shaped(r.luma, r.pitch, r.height) && Shaped(r.cb, r.pitch, r.height)
    && Shaped(r.cr, r.pitch, r.height) && Shaped(r.alpha, r.pitch, r.height)
  }

  /** The colour planes still hold white: the widgets only draw into alpha. */
  ghost predicate White(r: Region) {
    Uniform(r.luma, LUMA) && Uniform(r.cb, CHROMA) && Uniform(r.cr, CHROMA)
  }

  /** OSDRegion: a width x height region at (x, y) whose planes are filled
      with 0xff, 0x80, 0x80 and 0x00. */
  function NewRegion(x: int, y: int, width: nat, height: nat, pitch: Option<nat>): (r: Option<Region>)
    requires pitch.Some? ==> width <= pitch.value
    ensures r.Some? <==> pitch.Some?
    ensures r.Some? ==> var g := r.value;
      && WellFormed(g) && g.pitch == pitch.value
      && g.x == x && g.y == y && g.width == width && g.height == height
      && White(g) && Uniform(g.alpha, TRANSPARENT)
  {
    match pitch
    case None => None
    case Some(p) =>
      Some(Region(x, y, width, height, p,
                  Fill(p, height, LUMA), Fill(p, height, CHROMA),
                  Fill(p, height, CHROMA), Fill(p, height, TRANSPARENT)))
  }

  /** A region's alpha plane replaced by `a`. */
  function WithAlpha(r: Region, a: Plane): Region {
    r.(alpha := a)
  }

  // ---------------------------------------------------------------------------
  // Sliders

  /** `pos_x = (width - 2) * position / 100`: the cursor column of a
      horizontal slider. */
  function CursorColumn(width: int, position: int): int {
    TDiv((width - 2) * position, 100)
  }

  /** `pos_y = height - (height - 2) * position / 100`: the top row of a
      vertical slider's fill bar. */
  function FillTop(height: int, position: int): int {
    height - TDiv((height - 2) * position, 100)
  }

  /** The slider drawing: a horizontal slider is a 3-pixel-wide cursor inside
      an outline; a vertical slider is a fill bar rising from the bottom, two
      tick pixels at mid-height on either side, and an outline. */
  function SliderAlpha(horizontal: bool, position: int, width: int, height: int, a: Plane): Plane {
    if horizontal then
      var posX := CursorColumn(width, position);
      var a1 := Rect(a, Filled, posX - 1, 2, posX + 1, height - 3);
      Rect(a1, Empty, 0, 0, width - 1, height - 1)
    else
      var mid := height / 2;
      var posY := FillTop(height, position);
      var a1 := Rect(a, Filled, 2, posY, width - 3, height - 3);
      var a2 := Rect(a1, Filled, 1, mid, 1, mid);
      var a3 := Rect(a2, Filled, width - 2, mid, width - 2, mid);
      Rect(a3, Empty, 0, 0, width - 1, height - 1)
  }

  /** Every pixel of the border of the width x height box is opaque. */
  ghost predicate Framed(a: Plane, width: int, height: int) {
    forall y, x :: InPlane(a, x, y) && RectCovers(Empty, 0, 0, width - 1, height - 1, x, y) ==> a[y][x] == OPAQUE
  }

  /** OSDSlider. */
  function Slider(horizontal: bool, position: int, f: VideoFormat, pitch: Option<nat>): (r: Option<Region>)
    requires pitch.Some? ==> SliderBox(horizontal, f).width <= pitch.value
    ensures r.Some? <==> pitch.Some?
    ensures r.Some? ==> var g := r.value; var b := SliderBox(horizontal, f);
      && WellFormed(g)
      && g.x == b.x && g.y == b.y && g.width == b.width && g.height == b.height
      && White(g) && Binary(g.alpha) && Framed(g.alpha, g.width, g.height)
  {
    var b := SliderBox(horizontal, f);
    match NewRegion(b.x, b.y, b.width, b.height, pitch)
    case None => None
    case Some(g) =>
      var a := SliderAlpha(horizontal, position, b.width, b.height, g.alpha);
      SliderAlphaBinaryFramed(horizontal, position, b.width, b.height, g.pitch, g.alpha);
      Some(WithAlpha(g, a))
  }

  lemma {:induction false} SliderAlphaBinaryFramed(horizontal: bool, position: int, width: int, height: int, pitch: nat, a: Plane)
    requires 1 <= width <= pitch && 1 <= height
    requires Shaped(a, pitch, height) && Binary(a)
    ensures var s := SliderAlpha(horizontal, position, width, height, a);
      Shaped(s, pitch, height) && Binary(s) && Framed(s, width, height)
  {
    var a3;
    if horizontal {
      var posX := CursorColumn(width, position);
      a3 := Rect(a, Filled, posX - 1, 2, posX + 1, height - 3);
      RectIdempotentAndBinary(a, Filled, posX - 1, 2, posX + 1, height - 3);
    } else {
      var mid := height / 2;
      var posY := FillTop(height, position);
      var a1 := Rect(a, Filled, 2, posY, width - 3, height - 3);
      var a2 := Rect(a1, Filled, 1, mid, 1, mid);
      a3 := Rect(a2, Filled, width - 2, mid, width - 2, mid);
      RectIdempotentAndBinary(a, Filled, 2, posY, width - 3, height - 3);
      RectIdempotentAndBinary(a1, Filled, 1, mid, 1, mid);
      RectIdempotentAndBinary(a2, Filled, width - 2, mid, width - 2, mid);
    }
    var s := Rect(a3, Empty, 0, 0, width - 1, height - 1);
    assert s == SliderAlpha(horizontal, position, width, height, a);
    RectIdempotentAndBinary(a3, Empty, 0, 0, width - 1, height - 1);
  }

  /** For a slider at least 2 pixels wide and a position in [0, 100], the
      cursor column lies in [0, width - 2]: at the left end for 0 and the
      right end for 100. */
  lemma {:induction false} CursorColumnInRange(width: int, position: int)
    requires 2 <= width && 0 <= position <= 100
    ensures 0 <= CursorColumn(width, position) <= width - 2
    ensures position == 0 ==> CursorColumn(width, position) == 0
    ensures position == 100 ==> CursorColumn(width, position) == width - 2
  {
    var n := (width - 2) * position;
    assert 0 <= n <= (width - 2) * 100 by {
      MulMono(width - 2, position, 100);
    }
  }

  /** For a slider at least 2 pixels tall and a position in [0, 100], the
      fill bar's top row lies in [2, height]: at the bottom (an empty bar)
      for 0 and at row 2 for 100. */
  lemma {:induction false} FillTopInRange(height: int, position: int)
    requires 2 <= height && 0 <= position <= 100
    ensures 2 <= FillTop(height, position) <= height
    ensures position == 0 ==> FillTop(height, position) == height
    ensures position == 100 ==> FillTop(height, position) == 2
  {
    var n := (height - 2) * position;
    assert 0 <= n <= (height - 2) * 100 by {
      MulMono(height - 2, position, 100);
    }
  }

  /** A vertical slider at position 0 draws no fill bar: inside its outline,
      only the two tick pixels at mid-height are opaque. */
  lemma {:induction false} VerticalSliderAtZeroIsEmpty(f: VideoFormat, pitch: nat, x: int, y: int)
    requires SliderBox(false, f).width <= pitch
    requires var b := SliderBox(false, f);
      1 <= x < b.width - 1 && 1 <= y < b.height - 1 && !(y == b.height / 2 && (x == 1 || x == b.width - 2))
    ensures Slider(false, 0, f, Some(pitch)).value.alpha[y][x] == TRANSPARENT
  {
    var b := SliderBox(false, f);
    FillTopInRange(b.height, 0);
  }

  /** The pixels inside a slider's outline that its drawing covers: the
      3-pixel-wide cursor on rows 2 to height - 3 (horizontal), or the fill
      bar from pos_y down to row height - 3 between columns 2 and width - 3
      plus the two ticks at mid-height (vertical). */
  predicate SliderInteriorCovers(horizontal: bool, position: int, width: int, height: int, x: int, y: int) {
    if horizontal then
      CursorColumn(width, position) - 1 <= x <= CursorColumn(width, position) + 1 && 2 <= y <= height - 3
    else
      || (2 <= x <= width - 3 && FillTop(height, position) <= y <= height - 3)
      || (y == height / 2 && (x == 1 || x == width - 2))
  }

  /** Inside its outline, a slider pixel is opaque exactly where the cursor
      or the fill bar and ticks are drawn, and transparent everywhere else. */
  lemma {:induction false} SliderShowsPosition(horizontal: bool, position: int, f: VideoFormat, pitch: nat, x: int, y: int)
    requires SliderBox(horizontal, f).width <= pitch
    requires var b := SliderBox(horizontal, f); 1 <= x <= b.width - 2 && 1 <= y <= b.height - 2
    ensures var a := Slider(horizontal, position, f, Some(pitch)).value.alpha;
      var b := SliderBox(horizontal, f);
      && InPlane(a, x, y)
      && (a[y][x] == OPAQUE <==> SliderInteriorCovers(horizontal, position, b.width, b.height, x, y))
      && (a[y][x] == OPAQUE || a[y][x] == TRANSPARENT)
  {
    var b := SliderBox(horizontal, f);
    var blank := Fill(pitch, b.height, TRANSPARENT);
    assert Slider(horizontal, position, f, Some(pitch)).value.alpha == SliderAlpha(horizontal, position, b.width, b.height, blank);
    SliderAlphaInterior(horizontal, position, b.width, b.height, blank, x, y);
  }

  lemma {:induction false} SliderAlphaInterior(horizontal: bool, position: int, width: int, height: int, a: Plane, x: int, y: int)
    requires Uniform(a, TRANSPARENT) && InPlane(a, x, y)
    requires 1 <= x <= width - 2 && 1 <= y <= height - 2
    ensures var s := SliderAlpha(horizontal, position, width, height, a);
      && InPlane(s, x, y)
      && s[y][x] == (if SliderInteriorCovers(horizontal, position, width, height, x, y) then OPAQUE else TRANSPARENT)
  {
    var a3;
    if horizontal {
      var posX := CursorColumn(width, position);
      a3 := Rect(a, Filled, posX - 1, 2, posX + 1, height - 3);
    } else {
      var mid := height / 2;
      var a1 := Rect(a, Filled, 2, FillTop(height, position), width - 3, height - 3);
      var a2 := Rect(a1, Filled, 1, mid, 1, mid);
      a3 := Rect(a2, Filled, width - 2, mid, width - 2, mid);
      assert a1[y][x] == (if 2 <= x <= width - 3 && FillTop(height, position) <= y <= height - 3 then OPAQUE else TRANSPARENT);
      assert a2[y][x] == (if (2 <= x <= width - 3 && FillTop(height, position) <= y <= height - 3) || (x == 1 && y == mid) then OPAQUE else TRANSPARENT);
    }
    assert a3[y][x] == (if SliderInteriorCovers(horizontal, position, width, height, x, y) then OPAQUE else TRANSPARENT);
    assert !RectCovers(Empty, 0, 0, width - 1, height - 1, x, y);
    assert Rect(a3, Empty, 0, 0, width - 1, height - 1) == SliderAlpha(horizontal, position, width, height, a);
  }

  /** The horizontal cursor at position 0 starts at column -1. The C code
      writes its pixel (-1, y) at flat offset pitch * y - 1, which is pixel
      (pitch - 1, y - 1): a pixel of the row above the cursor. */
  lemma {:induction false} CursorAtZeroWritesRowAbove(a: seq<bv8>, pitch: nat, width: int, height: nat)
    requires 1 <= pitch && 5 <= height && |a| == pitch * height
    ensures CursorColumn(width, 0) - 1 == -1
    ensures Offset(pitch, -1, 2) == Offset(pitch, pitch - 1, 1) < |a|
    ensures FlatFilledRect(a, pitch, -1, 2, 1, height - 3)[Offset(pitch, pitch - 1, 1)] == OPAQUE
  {
    MulMono(pitch, 2, height);
    assert -1 <= -1 <= 1 && 2 <= 2 <= height - 3 && 2 * pitch - 1 == Offset(pitch, -1, 2);
  }

  /** The cursor starts at column 0, so its left column -1 is written into
      the row above, not only at position 0 but at every position that
      scales to less than one pixel. */
  lemma CursorAtLeftEdge(width: int, position: int)
    requires 2 <= width && 0 <= position <= 100
    ensures CursorColumn(width, position) == 0 <==> (width - 2) * position < 100
  {
  }

  /** A slider can be a single pixel wide: the vertical slider of a 60x40
      frame is 1 x 28. Its right tick, at column width - 2 = -1 on row
      mid = 14, is written by the C code at flat offset pitch * 14 - 1, which
      is pixel (pitch - 1, 13) of the row above; a 1-pixel-wide horizontal
      slider at position 100 has its cursor at column -1 likewise. */
  lemma {:induction false} NarrowSliderWritesRowAbove(a: seq<bv8>, pitch: nat)
    requires 1 <= pitch && |a| == pitch * 28
    ensures var b := SliderBox(false, VideoFormat(60, 40, 0, 0, 60, 40));
      b.width == 1 && b.height == 28 && b.height / 2 == 14
    ensures CursorColumn(1, 100) == -1
    ensures Offset(pitch, 1 - 2, 14) == Offset(pitch, pitch - 1, 13) < |a|
    ensures FlatFilledRect(a, pitch, -1, 14, -1, 14)[Offset(pitch, pitch - 1, 13)] == OPAQUE
  {
    MulMono(pitch, 14, 28);
    assert -1 <= -1 <= -1 && 14 <= 14 <= 14 && 14 * pitch - 1 == Offset(pitch, -1, 14);
  }

  // ---------------------------------------------------------------------------
  // Icons

  /** The icon drawings, on an s x s region. */
  function IconAlpha(kind: WidgetType, s: int, a: Plane): Plane {
    var mid := s / 2;
    var delta := (s - mid) / 2;
    var y2 := ((s - 1) / 2) * 2;
    if kind == PauseIcon then
      var bar := s / 3;
      Rect(Rect(a, Filled, 0, 0, bar - 1, s - 1), Filled, s - bar, 0, s - 1, s - 1)
    else if kind == PlayIcon then
      Triangle(a, Filled, delta, 0, s - delta, y2)
    else if kind == MuteIcon then
      MuteStroke(SpeakerAlpha(s, a))
    else
      SpeakerAlpha(s, a)
  }

  /** The speaker: a box with a triangle (the cone) over it, pointing left. */
  function SpeakerAlpha(s: int, a: Plane): Plane {
    var mid := s / 2;
    var delta := (s - mid) / 2;
    var y2 := ((s - 1) / 2) * 2;
    Triangle(Rect(a, Filled, delta, mid / 2, s - delta, s - 1 - mid / 2), Filled, s - delta, 0, delta, y2)
  }

  /** OSDIcon. */
  function Icon(kind: WidgetType, f: VideoFormat, pitch: Option<nat>): (r: Option<Region>)
    requires pitch.Some? ==> IconSize(f) <= pitch.value
    ensures r.Some? <==> pitch.Some?
    ensures r.Some? ==> var g := r.value; var b := IconBox(f);
      && WellFormed(g) && g.width == g.height
      && g.x == b.x && g.y == b.y && g.width == b.width
      && White(g) && Binary(g.alpha)
  {
    var b := IconBox(f);
    match NewRegion(b.x, b.y, b.width, b.height, pitch)
    case None => None
    case Some(g) =>
      IconAlphaBinary(kind, b.width, g.alpha);
      Some(WithAlpha(g, IconAlpha(kind, b.width, g.alpha)))
  }

  lemma {:induction false} IconAlphaBinary(kind: WidgetType, s: int, a: Plane)
    requires Binary(a)
    ensures SameShape(a, IconAlpha(kind, s, a)) && Binary(IconAlpha(kind, s, a))
  {
    var mid := s / 2;
    var delta := (s - mid) / 2;
    var y2 := ((s - 1) / 2) * 2;
    if kind == PauseIcon {
      var bar := s / 3;
      var left := Rect(a, Filled, 0, 0, bar - 1, s - 1);
      RectIdempotentAndBinary(a, Filled, 0, 0, bar - 1, s - 1);
      RectIdempotentAndBinary(left, Filled, s - bar, 0, s - 1, s - 1);
      assert IconAlpha(kind, s, a) == Rect(left, Filled, s - bar, 0, s - 1, s - 1);
    } else if kind == PlayIcon {
      TriangleKeepsBinary(a, Filled, delta, 0, s - delta, y2);
    } else {
      SpeakerAlphaBinary(s, a);
      if kind == MuteIcon {
        MuteStrokeInvolution(SpeakerAlpha(s, a));
      }
    }
  }

  lemma {:induction false} SpeakerAlphaBinary(s: int, a: Plane)
    requires Binary(a)
    ensures SameShape(a, SpeakerAlpha(s, a)) && Binary(SpeakerAlpha(s, a))
  {
    var mid := s / 2;
    var delta := (s - mid) / 2;
    var y2 := ((s - 1) / 2) * 2;
    var box := Rect(a, Filled, delta, mid / 2, s - delta, s - 1 - mid / 2);
    RectIdempotentAndBinary(a, Filled, delta, mid / 2, s - delta, s - 1 - mid / 2);
    TriangleKeepsBinary(box, Filled, s - delta, 0, delta, y2);
  }

  /** The pause icon is two full-height bars, each a third of the icon wide:
      a pixel is opaque exactly when it lies in the left or the right third. */
  lemma PauseIconIsTwoBars(f: VideoFormat, pitch: nat, x: int, y: int)
    requires IconSize(f) <= pitch
    requires 0 <= x < IconSize(f) && 0 <= y < IconSize(f)
    ensures var s := IconSize(f);
      Icon(PauseIcon, f, Some(pitch)).value.alpha[y][x] == OPAQUE <==> x < s / 3 || s - s / 3 <= x
  {
  }

  /** The play icon is mirror-symmetric about its middle row. */
  lemma {:induction false} PlayIconIsSymmetric(f: VideoFormat, pitch: nat, x: int, y: int)
    requires IconSize(f) <= pitch
    requires var s := IconSize(f); 0 <= x < pitch && 0 <= y <= ((s - 1) / 2) * 2 && y < s
    ensures var a := Icon(PlayIcon, f, Some(pitch)).value.alpha;
      a[y][x] == a[((IconSize(f) - 1) / 2) * 2 - y][x]
  {
    var s := IconSize(f);
    var y2 := ((s - 1) / 2) * 2;
    var blank := Fill(pitch, s, TRANSPARENT);
    var delta := (s - s / 2) / 2;
    PlayIconIsTriangle(f, pitch);
    TrianglePixelSymmetric(blank, Filled, delta, 0, s - delta, y2, x, y);
  }

  /** The play icon's alpha plane is the triangle drawn on a blank plane. */
  lemma PlayIconIsTriangle(f: VideoFormat, pitch: nat)
    requires IconSize(f) <= pitch
    ensures var s := IconSize(f);
      var delta := (s - s / 2) / 2;
      Icon(PlayIcon, f, Some(pitch)).value.alpha
        == Triangle(Fill(pitch, s, TRANSPARENT), Filled, delta, 0, s - delta, ((s - 1) / 2) * 2)
  {
    var s: int := IconSize(f);
    var b := IconBox(f);
    var g := NewRegion(b.x, b.y, b.width, b.height, Some(pitch)).value;
    assert g.alpha == Fill(pitch, s, TRANSPARENT);
    assert IconAlpha(PlayIcon, s, g.alpha) == Triangle(g.alpha, Filled, (s - s / 2) / 2, 0, s - (s - s / 2) / 2, ((s - 1) / 2) * 2);
  }

  /** The mute icon is the speaker icon with its diagonal inverted, so
      inverting the mute icon's diagonal gives back the speaker icon. */
  lemma {:induction false} MuteIsStruckSpeaker(f: VideoFormat, pitch: nat)
    requires IconSize(f) <= pitch
    ensures var mute := Icon(MuteIcon, f, Some(pitch)).value.alpha;
      var speaker := Icon(SpeakerIcon, f, Some(pitch)).value.alpha;
      mute == MuteStroke(speaker) && MuteStroke(mute) == speaker
  {
    MuteStrokeInvolution(Icon(SpeakerIcon, f, Some(pitch)).value.alpha);
  }

  /** The pixels of the speaker on an s x s icon: the box, a third of the
      icon tall and centred, and the cone, the filled triangle from the
      box's right edge back to its left edge over the icon's full height. */
  predicate SpeakerCovers(s: int, x: int, y: int) {
    var mid := s / 2;
    var delta := (s - mid) / 2;
    || RectCovers(Filled, delta, mid / 2, s - delta, s - 1 - mid / 2, x, y)
    || TriangleCovers(Filled, s - delta, 0, delta, ((s - 1) / 2) * 2, x, y)
  }

  /** The opaque pixels of each icon kind on an s x s icon. */
  predicate IconCovers(kind: WidgetType, s: int, x: int, y: int) {
    match kind
    case PauseIcon => x < s / 3 || s - s / 3 <= x
    case PlayIcon => TriangleCovers(Filled, (s - s / 2) / 2, 0, s - (s - s / 2) / 2, ((s - 1) / 2) * 2, x, y)
    case SpeakerIcon => SpeakerCovers(s, x, y)
    case MuteIcon => SpeakerCovers(s, x, y) != OnMuteStroke(s, x, y)
    case _ => false
  }

  /** The speaker icon is the box and the cone drawn on a blank icon: a
      pixel is opaque exactly when one of them covers it. */
  lemma {:induction false} SpeakerIconIsBoxAndCone(f: VideoFormat, pitch: nat, x: int, y: int)
    requires IconSize(f) <= pitch
    requires 0 <= x < IconSize(f) && 0 <= y < IconSize(f)
    ensures var a := Icon(SpeakerIcon, f, Some(pitch)).value.alpha;
      && InPlane(a, x, y)
      && (a[y][x] == OPAQUE <==> SpeakerCovers(IconSize(f), x, y))
      && (a[y][x] == OPAQUE || a[y][x] == TRANSPARENT)
  {
    var s: int := IconSize(f);
    var b := IconBox(f);
    var g := NewRegion(b.x, b.y, b.width, b.height, Some(pitch)).value;
    assert g.alpha == Fill(pitch, s, TRANSPARENT);
    SpeakerPixel(s, g.alpha, x, y);
  }

  lemma {:induction false} SpeakerPixel(s: int, a: Plane, x: int, y: int)
    requires Uniform(a, TRANSPARENT) && InPlane(a, x, y)
    ensures var q := SpeakerAlpha(s, a);
      && InPlane(q, x, y)
      && q[y][x] == (if SpeakerCovers(s, x, y) then OPAQUE else TRANSPARENT)
  {
    var mid := s / 2;
    var delta := (s - mid) / 2;
    var box := Rect(a, Filled, delta, mid / 2, s - delta, s - 1 - mid / 2);
    assert box[y][x] == (if RectCovers(Filled, delta, mid / 2, s - delta, s - 1 - mid / 2, x, y) then OPAQUE else TRANSPARENT);
  }

  /** Every icon kind shows exactly its own drawing: a pixel of the icon is
      opaque exactly when the kind's shape covers it, and transparent
      otherwise. For the mute icon this is the speaker with its diagonal
      inverted. */
  lemma {:induction false} IconShowsKind(kind: WidgetType, f: VideoFormat, pitch: nat, x: int, y: int)
    requires !kind.IsSlider() && IconSize(f) <= pitch
    requires 0 <= x < IconSize(f) && 0 <= y < IconSize(f)
    ensures var a := Icon(kind, f, Some(pitch)).value.alpha;
      && InPlane(a, x, y)
      && (a[y][x] == OPAQUE <==> IconCovers(kind, IconSize(f), x, y))
      && (a[y][x] == OPAQUE || a[y][x] == TRANSPARENT)
  {
    var s: int := IconSize(f);
    var b := IconBox(f);
    var g := NewRegion(b.x, b.y, b.width, b.height, Some(pitch)).value;
    assert g.alpha == Fill(pitch, s, TRANSPARENT);
    var a := Icon(kind, f, Some(pitch)).value.alpha;
    assert a == IconAlpha(kind, s, g.alpha);
    match kind
    case PauseIcon =>
      PauseIconIsTwoBars(f, pitch, x, y);
    case PlayIcon =>
      PlayIconIsTriangle(f, pitch);
    case SpeakerIcon =>
      SpeakerIconIsBoxAndCone(f, pitch, x, y);
    case MuteIcon =>
      SpeakerPixel(s, g.alpha, x, y);
      assert a == MuteStroke(SpeakerAlpha(s, g.alpha));
  }

  /** The mute icon's loop runs i up to pitch - 1. Whenever the rows are
      longer than the icon is tall, step i = height is inside that range and
      its offset `i + (height - i - 1) * pitch` is negative: the C code
      writes before the start of the alpha plane. */
  lemma MuteStrokeLeavesPlane(pitch: nat, height: int)
    requires 1 <= height < pitch
    ensures MuteStrokeOffset(pitch, height, height) == height - pitch < 0
  {
  }
}

=== FILE: plane.dfy ===
/** A minimal Option, used for the allocations that may fail (a NULL result in C). */
module Options {
  datatype Option<+T> = None | Some(value: T)
}

/**
 This module models one 8-bit plane of an OSD region's picture.

 The C code addresses a plane as a flat buffer: pixel (x, y) is the byte at
 offset `x + pitch * y`, and the plane holds `lines` rows of `pitch` bytes.
 Here a plane is the sequence of its rows, so a write at (x, y) can be checked
 against the plane's bounds instead of landing in a neighbouring row.
 */
module Plane {

  type Plane = seq<seq<bv8>>

  /** `p` has `lines` rows of `pitch` bytes each. */
  predicate Shaped(p: Plane, pitch: nat, lines: nat) {
    |p| == lines && forall y :: 0 <= y < |p| ==> |p[y]| == pitch
  }

  /** `p` and `q` have the same number of rows and the same row lengths. */
  predicate SameShape(p: Plane, q: Plane) {
    |p| == |q| && forall y :: 0 <= y < |p| ==> |p[y]| == |q[y]|
  }

  /** Pixel (x, y) exists in `p`. */
  predicate InPlane(p: Plane, x: int, y: int) {
    0 <= y < |p| && 0 <= x < |p[y]|
  }

  /** Every pixel of `p` equals `v`. */
  ghost predicate Uniform(p: Plane, v: bv8) {
    forall y, x :: InPlane(p, x, y) ==> p[y][x] == v
  }

  /** Every pixel of `p` is fully transparent (0x00) or fully opaque (0xff). */
  ghost predicate Binary(p: Plane) {
    forall y, x :: InPlane(p, x, y) ==> p[y][x] == 0x00 || p[y][x] == 0xff
  }

  /** The byte offset of pixel (x, y) in the flat C buffer. */
  function Offset(pitch: nat, x: int, y: int): int {
    x + pitch * y
  }

  /** A plane of `lines` rows of `pitch` bytes, every byte set to `v`: the
      `memset(p->p_pixels, v, p->i_pitch * height)` that creates a region. */
  function Fill(pitch: nat, lines: nat, v: bv8): (p: Plane)
    ensures Shaped(p, pitch, lines)
    ensures Uniform(p, v)
  {
    seq(lines, _ => seq(pitch, _ => v))
  }

  /** A bounds-checked write: sets pixel (x, y) to `v` when it exists, and
      leaves the plane unchanged otherwise. */
  function Put(p: Plane, x: int, y: int, v: bv8): (q: Plane)
    ensures SameShape(p, q)
    ensures forall j, i :: InPlane(p, i, j) ==> q[j][i] == (if i == x && j == y then v else p[j][i])
  {
    if InPlane(p, x, y) then p[y := p[y][x := v]] else p
  }

  /** Two planes of the same shape that agree on every pixel are equal. */
  lemma Extensionality(p: Plane, q: Plane)
    requires SameShape(p, q)
    requires forall y, x :: InPlane(p, x, y) ==> p[y][x] == q[y][x]
    ensures p == q
  {
    forall y | 0 <= y < |p|
      ensures p[y] == q[y]
    {
      assert forall x :: 0 <= x < |p[y]| ==> p[y][x] == q[y][x] by {
        forall x | 0 <= x < |p[y]| ensures p[y][x] == q[y][x] {
          assert InPlane(p, x, y);
        }
      }
    }
  }

  /** Inside a plane of `lines` rows of `pitch` bytes, distinct pixels have
      distinct offsets in the flat buffer, and every offset lies inside it. */
  lemma {:induction false} OffsetInBuffer(pitch: nat, lines: nat, x: int, y: int)
    requires 0 <= x < pitch && 0 <= y < lines
    ensures 0 <= Offset(pitch, x, y) < pitch * lines
    ensures Offset(pitch, x, y) / pitch == y && Offset(pitch, x, y) % pitch == x
  {
    assert pitch * y + pitch <= pitch * lines by {
      assert y + 1 <= lines;
      MulMono(pitch, y + 1, lines);
    }
    assert pitch * y == y * pitch;
    DivModUnique(Offset(pitch, x, y), pitch, y, x);
  }

  /** Every byte of a buffer of `lines` rows of `pitch` bytes is the byte of
      exactly one pixel: (k % pitch, k / pitch). */
  lemma {:induction false} PixelOfOffset(pitch: nat, lines: nat, k: int)
    requires 0 <= k < pitch * lines
    ensures pitch > 0
    ensures 0 <= k % pitch < pitch && 0 <= k / pitch < lines
    ensures Offset(pitch, k % pitch, k / pitch) == k
  {
    assert pitch > 0;
    if k / pitch >= lines {
      MulMono(pitch, lines, k / pitch);
      assert false;
    }
  }

  /** The flat C buffer of a plane: row after row. */
  function Flatten(p: Plane, pitch: nat): (a: seq<bv8>)
    requires Shaped(p, pitch, |p|)
    ensures |a| == pitch * |p|
  {
    seq(pitch * |p|, k requires 0 <= k < pitch * |p| =>
      PixelOfOffset(pitch, |p|, k);
      p[k / pitch][k % pitch])
  }

  /** Pixel (x, y) of a plane is byte `Offset(pitch, x, y)` of its flat buffer. */
  lemma FlattenPixel(p: Plane, pitch: nat, x: int, y: int)
    requires Shaped(p, pitch, |p|) && InPlane(p, x, y)
    ensures 0 <= Offset(pitch, x, y) < |Flatten(p, pitch)|
    ensures Flatten(p, pitch)[Offset(pitch, x, y)] == p[y][x]
  {
    OffsetInBuffer(pitch, |p|, x, y);
  }

  /** A write inside the plane is the C write: the flat buffer with byte
      `x + pitch * y` replaced. */
  lemma {:induction false} PutIsFlatWrite(p: Plane, pitch: nat, x: int, y: int, v: bv8)
    requires Shaped(p, pitch, |p|) && InPlane(p, x, y)
    ensures Shaped(Put(p, x, y, v), pitch, |p|)
    ensures 0 <= Offset(pitch, x, y) < pitch * |p|
    ensures Flatten(Put(p, x, y, v), pitch) == Flatten(p, pitch)[Offset(pitch, x, y) := v]
  {
    var q := Put(p, x, y, v);
    OffsetInBuffer(pitch, |p|, x, y);
    assert Shaped(q, pitch, |p|);
    var fp, fq := Flatten(p, pitch), Flatten(q, pitch);
    var o := Offset(pitch, x, y);
    var w := fp[o := v];
    assert |fq| == |w|;
    forall k | 0 <= k < |fq|
      ensures fq[k] == w[k]
    {
      FlatWriteAt(p, pitch, x, y, v, k);
    }
    assert fq == w;
  }

  lemma {:induction false} FlatWriteAt(p: Plane, pitch: nat, x: int, y: int, v: bv8, k: int)
    requires Shaped(p, pitch, |p|) && InPlane(p, x, y)
    requires 0 <= k < pitch * |p|
    ensures Shaped(Put(p, x, y, v), pitch, |p|)
    ensures Flatten(Put(p, x, y, v), pitch)[k] == (if k == Offset(pitch, x, y) then v else Flatten(p, pitch)[k])
  {
    var q := Put(p, x, y, v);
    PixelOfOffset(pitch, |p|, k);
    OffsetInBuffer(pitch, |p|, x, y);
    var i, j := k % pitch, k / pitch;
    assert Flatten(q, pitch)[k] == q[j][i];
    assert Flatten(p, pitch)[k] == p[j][i];
    assert InPlane(p, i, j);
    assert k == Offset(pitch, x, y) <==> i == x && j == y;
  }

  lemma MulMono(a: nat, b: int, c: int)
    requires b <= c
    ensures a * b <= a * c
  {
    assert a * c - a * b == a * (c - b);
  }

  lemma DivModUnique(n: int, d: nat, q: int, r: int)
    requires d > 0 && 0 <= r < d && n == q * d + r
    ensures n / d == q && n % d == r
  {
    var q', r' := n / d, n % d;
    assert n == q' * d + r';
    assert (q - q') * d == r' - r by {
      assert (q - q') * d == q * d - q' * d;
    }
    if q > q' {
      MulMono(d, 1, q - q');
      assert false;
    } else if q < q' {
      MulMono(d, 1, q' - q);
      assert false;
    }
  }
}

=== FILE: widget.dfy ===
/**
 The OSD widget subpicture of vlc/src/video_output/video_widgets.c: OSDWidget
 creates it, OSDWidgetValidate decides whether its region may be kept, and
 OSDWidgetUpdate rebuilds the region from the source format.

 The "osd" setting (var_InheritBool), the clock (mdate) and the allocations
 (malloc and subpicture_New) are parameters; vout_PutSubpicture, which hands
 the subpicture to the video output, is not part of this model.
 */
module Widget {
  import opened Options
  import opened Plane
  import opened Geometry
  import opened Draw
  import opened Osd

  /** A widget stays on screen for 1.2 s (mtime_t counts microseconds). */
  const DISPLAY_DURATION: int := 1200000

  /** The status codes OSDWidgetValidate returns. */
  const VLC_SUCCESS: int := 0
  const VLC_EGENERIC: int := -666

  /** subpicture_updater_sys_t: what the updater remembers of the request. */
  datatype UpdaterState = UpdaterState(kind: WidgetType, position: int)

  /** The fields of subpicture_t that the widget code sets. */
  datatype Subpicture = Subpicture(
    channel: int, start: int, stop: int,
    ephemeral: bool, absolute: bool, fade: bool,
    updater: UpdaterState,
    originalWidth: nat, originalHeight: nat,
    region: Option<Region>)

  /** The position a request keeps: a slider's is clamped into [0, 100], an
      icon's is kept as given. */
  function ClampPosition(kind: WidgetType, position: int): (p: int)
    ensures kind.IsSlider() ==> 0 <= p <= 100
    ensures kind.IsSlider() && 0 <= position <= 100 ==> p == position
    ensures kind.IsSlider() && position < 0 ==> p == 0
    ensures kind.IsSlider() && position > 100 ==> p == 100
    ensures !kind.IsSlider() ==> p == position
  {
    if kind.IsSlider() then Min(Max(position, 0), 100) else position
  }

  /** OSDWidget. `osdEnabled` is the "osd" setting, `now` the clock, and
      `created` whether both allocations succeeded. A new subpicture has
      no region and no original picture size yet. */
  function OSDWidget(osdEnabled: bool, channel: int, kind: WidgetType, position: int, now: int, created: bool): (r: Option<Subpicture>)
    ensures r.Some? <==> osdEnabled && created
    ensures r.Some? ==> var s := r.value;
      && s.channel == channel && s.start == now && s.stop == s.start + DISPLAY_DURATION
      && s.ephemeral && s.absolute && s.fade
      && s.updater.kind == kind
      && (kind.IsSlider() ==> 0 <= s.updater.position <= 100)
      && (kind.IsSlider() && 0 <= position <= 100 ==> s.updater.position == position)
      && (kind.IsSlider() && position < 0 ==> s.updater.position == 0)
      && (kind.IsSlider() && position > 100 ==> s.updater.position == 100)
      && (!kind.IsSlider() ==> s.updater.position == position)
      && s.region == None
  {
    if !osdEnabled || !created then None
    else
      Some(Subpicture(channel, now, now + DISPLAY_DURATION, true, true, true,
                      UpdaterState(kind, ClampPosition(kind, position)), 0, 0, None))
  }

  /** vout_OSDSlider. */
  function ShowSlider(osdEnabled: bool, channel: int, position: int, kind: WidgetType, now: int, created: bool): (r: Option<Subpicture>)
    requires kind.IsSlider()
    ensures r.Some? <==> osdEnabled && created
    ensures r.Some? ==> r.value.updater.kind == kind && 0 <= r.value.updater.position <= 100
    ensures r.Some? && 0 <= position <= 100 ==> r.value.updater.position == position
    ensures r.Some? && position < 0 ==> r.value.updater.position == 0
    ensures r.Some? && position > 100 ==> r.value.updater.position == 100
  {
    OSDWidget(osdEnabled, channel, kind, position, now, created)
  }

  /** vout_OSDIcon: icons always carry position 0. */
  function ShowIcon(osdEnabled: bool, channel: int, kind: WidgetType, now: int, created: bool): (r: Option<Subpicture>)
    ensures r.Some? <==> osdEnabled && created
    ensures r.Some? ==> r.value.updater == UpdaterState(kind, 0)
  {
    OSDWidget(osdEnabled, channel, kind, 0, now, created)
  }

  /** OSDWidgetValidate: success (keep the region) when neither format
      changed, failure (rebuild it) otherwise. */
  function Validate(srcChanged: bool, dstChanged: bool): (status: int)
    ensures status == VLC_SUCCESS <==> !srcChanged && !dstChanged
    ensures status == VLC_SUCCESS || status == VLC_EGENERIC
  {
    if !srcChanged && !dstChanged then VLC_SUCCESS else VLC_EGENERIC
  }

  /** The row length an allocation must grant for the widget's region. */
  predicate PitchFits(kind: WidgetType, f: VideoFormat, pitch: Option<nat>) {
    pitch.Some? ==>
      (if kind.IsSlider() then SliderBox(kind == HorizontalSlider, f).width else IconSize(f)) <= pitch.value
  }

  /** OSDWidgetUpdate: records the source picture size and builds the
      region for the widget's kind; `pitch` is the region allocation. */
  function Update(s: Subpicture, src: VideoFormat, pitch: Option<nat>): (r: Subpicture)
    requires PitchFits(s.updater.kind, src, pitch)
    ensures r.originalWidth == src.width && r.originalHeight == src.height
    ensures r.(originalWidth := s.originalWidth, originalHeight := s.originalHeight, region := s.region) == s
    ensures r.region.Some? <==> pitch.Some?
    ensures r.region.Some? ==> var g := r.region.value;
      && WellFormed(g) && White(g) && Binary(g.alpha)
      && (s.updater.kind.IsSlider() ==>
            var b := SliderBox(s.updater.kind == HorizontalSlider, src);
            g.x == b.x && g.y == b.y && g.width == b.width && g.height == b.height)
      && (!s.updater.kind.IsSlider() ==>
            var b := IconBox(src);
            g.x == b.x && g.y == b.y && g.width == b.width && g.height == b.height)
  {
    var kind := s.updater.kind;
    var region :=
      if kind.IsSlider() then Slider(kind == HorizontalSlider, s.updater.position, src, pitch)
      else Icon(kind, src, pitch);
    s.(originalWidth := src.width, originalHeight := src.height, region := region)
  }

  /** One refresh of a widget by the subpicture engine: keep the subpicture
      when OSDWidgetValidate succeeds, otherwise rebuild it with
      OSDWidgetUpdate. */
  function Refresh(s: Subpicture, srcChanged: bool, dstChanged: bool, src: VideoFormat, pitch: Option<nat>): (r: Subpicture)
    requires PitchFits(s.updater.kind, src, pitch)
    ensures !srcChanged && !dstChanged ==> r == s
    ensures srcChanged || dstChanged ==> r == Update(s, src, pitch)
  {
    if Validate(srcChanged, dstChanged) == VLC_SUCCESS then s else Update(s, src, pitch)
  }

  /** Keeping is sound: once a widget has been built from a format, keeping
      it gives exactly what rebuilding it from that format would give. */
  lemma {:induction false} KeepMatchesRebuild(s: Subpicture, src: VideoFormat, pitch: Option<nat>, dstChanged: bool)
    requires PitchFits(s.updater.kind, src, pitch)
    ensures var built := Update(s, src, pitch);
      Refresh(built, false, false, src, pitch) == Refresh(built, true, dstChanged, src, pitch)
  {
    var built := Update(s, src, pitch);
    assert built.updater == s.updater;
  }

  /** A rebuild does not depend on the region being replaced: two widgets
      that differ only in their current region rebuild to the same thing. */
  lemma {:induction false} RebuildIgnoresOldRegion(s: Subpicture, previous: Option<Region>, src: VideoFormat, pitch: Option<nat>)
    requires PitchFits(s.updater.kind, src, pitch)
    ensures Update(s.(region := previous), src, pitch) == Update(s, src, pitch)
  {
  }

  /** A slider request, once built, shows the clamped position it asked
      for: inside the outline, a pixel is opaque exactly where the cursor
      (or the fill bar and ticks) for that position is drawn. */
  lemma {:induction false} WidgetShowsClampedPosition(channel: int, kind: WidgetType, position: int, now: int, src: VideoFormat, pitch: nat, x: int, y: int)
    requires kind.IsSlider()
    requires SliderBox(kind == HorizontalSlider, src).width <= pitch
    requires var b := SliderBox(kind == HorizontalSlider, src); 1 <= x <= b.width - 2 && 1 <= y <= b.height - 2
    ensures var s := OSDWidget(true, channel, kind, position, now, true).value;
      var a := Update(s, src, Some(pitch)).region.value.alpha;
      var b := SliderBox(kind == HorizontalSlider, src);
      && InPlane(a, x, y)
      && (a[y][x] == OPAQUE <==> SliderInteriorCovers(kind == HorizontalSlider, ClampPosition(kind, position), b.width, b.height, x, y))
  {
    var s := OSDWidget(true, channel, kind, position, now, true).value;
    assert Update(s, src, Some(pitch)).region == Slider(kind == HorizontalSlider, ClampPosition(kind, position), src, Some(pitch));
    SliderShowsPosition(kind == HorizontalSlider, ClampPosition(kind, position), src, pitch, x, y);
  }

  /** An icon request, once built, shows its own kind's drawing over the
      whole icon. */
  lemma {:induction false} WidgetShowsIcon(channel: int, kind: WidgetType, now: int, src: VideoFormat, pitch: nat, x: int, y: int)
    requires !kind.IsSlider() && IconSize(src) <= pitch
    requires 0 <= x < IconSize(src) && 0 <= y < IconSize(src)
    ensures var s := ShowIcon(true, channel, kind, now, true).value;
      var a := Update(s, src, Some(pitch)).region.value.alpha;
      && InPlane(a, x, y)
      && (a[y][x] == OPAQUE <==> IconCovers(kind, IconSize(src), x, y))
  {
    var s := ShowIcon(true, channel, kind, now, true).value;
    assert Update(s, src, Some(pitch)).region == Icon(kind, src, Some(pitch));
    IconShowsKind(kind, src, pitch, x, y);
  }
}
